=== FILE: README.md ===
# ORIA gamification rules in Dafny

ORIA is a habit-tracking web app with game mechanics. A user record holds:

- a level, an xp bar and coins
- quests made of sub-tasks, some of which carry a generated quiz
- three daily quests
- owned and equipped mascot skins
- achievements and a daily streak

The browser keeps a copy of this record (`OriaState`) and posts it back after every change. A Flask server owns the stored record.

This project models, as pure functions over immutable datatypes:

- the client's rules for rewards, progress, quizzes, the skin shop and the mascot (`static/js/ui.js`)
- the server's rules for the roulette, equipping, achievements, the streak, daily-quest generation and the chat history (`routes/api.py`)
- the merge of newly unlocked achievements after a save (`static/js/api.js`)
- the initial state, the skin catalogue and the shallow merge (`static/js/state.js`)

It then proves what these rules promise, alone and when client and server run one after another.

Randomness, network replies and "today" are inputs:

- A random draw is an index, under a precondition that it is in range.
- A server reply is a datatype of its possible outcomes.
- A date is an integer day number.

Percentages are integers. `Math.round(c / t * 100)` is approximated by `(200c + t) / (2t)`, which is 100c/t rounded half up. The two differ only where the floating-point quotient lands just below a .5 point. For example, with c = 23 and t = 40 JavaScript computes 57 and the formula gives 58.

The server record is taken to carry a streak, a last-active date and an achievement list, stored like the other list columns. The migration `update_db_phase3.py` adds all three columns to the table, but the `User` class in `models.py` declares none of them and has no `get_achievements`/`set_achievements` methods. Without these, `routes/api.py` fails at lines 78, 144 and 482. The server-side rules, and the findings that rest on them, assume the repaired record.

| file | module | models |
|---|---|---|
| common.dfy | `Common` | `Option`, an order-preserving `Filter`, `NoDuplicates`, the rounded percentage |
| model.dfy | `Model` | quests, sub-tasks, quizzes, daily quests, the client state |
| state_store.dfy | `StateStore` | `state.js`: initial state, catalogue, `setState` |
| rewards.dfy | `Rewards` | `addXP`, `completeTask`, `completeDailyQuest` |
| progress.dfy | `Progress` | quest progress and the active / completed lists |
| quiz.dfy | `Quiz` | storing, submitting and resetting a quiz |
| store_client.dfy | `StoreClient` | roulette handler guard and update; optimistic equip with rollback |
| mascot.dfy | `Mascot` | the `isAnimating` guard and the frames of `blink` / `talk` |
| daily_quests.dfy | `DailyQuests` | `_generate_daily_quests` |
| chat.dfy | `Chat` | history truncation and the history filter |
| server_user.dfy | `ServerUser` | the server record; the streak on load; `update_user_state` |
| server_store.dfy | `ServerStore` | `api_store_roulette`, `api_store_equip` |
| achievement_sync.dfy | `AchievementSync` | the `newly_unlocked` merge in `saveStateAPI` |
| sync.dfy | `Sync` | client and server together: save, roulette round trip, catalogue |

## Model

| member | source | states |
|---|---|---|
| Common.RoundPercent | static/js/ui.js:150 | the percentage is the nearest integer to 100c/t, with halves rounded up, and lies in [0,100] when c ≤ t |
| Common.RoundPercentFull | static/js/ui.js:150-152 | a count rounds to 100% exactly when 200c ≥ 199t, i.e. at least 99.5% done |
| Common.RoundPercentExtremes | static/js/ui.js:150 | 0 of t is 0% and t of t is 100% |
| Common.RoundPercentBelowFull | static/js/ui.js:150-152 | with fewer than 200 items, anything short of all of them rounds below 100% |
| Common.Filter | static/js/ui.js:526 | the kept elements are exactly the input's elements that pass the test, and there are no more of them than inputs |
| Common.FilterAppend | routes/api.py:350-358 | filtering a concatenation filters each part, keeping the order |
| StateStore.InitialState | static/js/state.js:1-9 | level 1, xp 0, coins 0, no quests or dailies, the default skin owned and equipped, so the state is well-formed |
| StateStore.CatalogueShape | static/js/state.js:11-19 | catalogue ids are unique; the default skin comes first and is free; every other skin costs 100 |
| StateStore.SetState | static/js/state.js:21-23 | every key present in the new state takes its value; every other key keeps the old one |
| StateStore.FieldsDetermineState | static/js/state.js:21-23 | two states that agree on every key are equal, so `SetState` is fixed by its per-key contract |
| StateStore.SetStateEmpty | static/js/state.js:21-23 | merging an object with no keys changes nothing |
| StateStore.SetStateIdempotent | static/js/state.js:21-23 | merging the same object twice is merging it once |
| StateStore.SetStateCompose | static/js/state.js:21-23 | two merges in a row equal one merge of the two objects, the later winning |
| StateStore.SetStateFullReplaces | static/js/state.js:21-23 | merging a complete state replaces the local state entirely |
| Rewards.AddXP | static/js/ui.js:105-111 | only level, xp and coins change; the total 100·level+xp grows by the amount; coins grow by floor(amount/2); from xp+a ≥ 0, xp becomes (xp+a) mod 100 in [0,100) and level grows by (xp+a) div 100; level rises iff xp+a ≥ 100 and never falls |
| Rewards.AddXPMultiLevel | static/js/ui.js:105-111 | from xp 90, an award of 250 gives three levels, xp 40 and 125 coins |
| Rewards.AddXPZero | static/js/ui.js:105-111 | an award of 0 changes nothing on a valid state |
| Rewards.AddXPPreservesWellformed | static/js/ui.js:105-111 | a non-negative award keeps level ≥ 1, xp in [0,100), coins ≥ 0 and the skin invariants |
| Rewards.AddXPSplit | static/js/ui.js:105-111 | two awards give the same level and xp as their sum in one award; coins differ by at most one |
| Rewards.RewardOf | static/js/ui.js:515 | a sub-task without a reward, or with reward 0, is worth 50 xp; any other reward is used as is |
| Rewards.CompleteTask | static/js/ui.js:511-518 | an open sub-task becomes completed; its reward is added to the xp total, rolling over into levels so that, when xp plus the reward is not negative, xp ends in [0,100); the level never falls and rises exactly when xp reaches 100; half the reward, rounded down, is added to the coins; the quest's other fields, its other sub-tasks, the other quests and every other store field are unchanged; a missing or completed sub-task changes nothing |
| Rewards.CompleteTaskPreservesWellformed | static/js/ui.js:511-518 | completing a sub-task whose reward is not negative keeps level ≥ 1, xp in [0,100), coins ≥ 0 and the skin invariants |
| Rewards.CompleteTaskIdempotent | static/js/ui.js:513 | completing the same sub-task twice awards it once |
| Rewards.FindDaily | static/js/ui.js:232 | finds the first daily quest with the id, or reports that none has it |
| Rewards.CompleteDailyQuest | static/js/ui.js:230-244 | the first daily quest with the id, if open, is marked completed; its reward is added to the xp total, rolling over into levels so that, when xp plus the reward is not negative, xp ends in [0,100); the level never falls and rises exactly when xp reaches 100; half the reward, rounded down, is added to the coins; nothing but daily quests, level, xp and coins changes; a missing id or a completed quest changes nothing |
| Rewards.CompleteDailyQuestPreservesWellformed | static/js/ui.js:230-244 | completing a daily quest whose reward is not negative keeps the store well-formed |
| Rewards.CompleteDailyQuestIdempotent | static/js/ui.js:234 | completing the same daily quest twice awards it once |
| Progress.CountCompleted | static/js/ui.js:148 | the count is at most the number of sub-tasks; it equals that number iff all are done, and is 0 iff none is |
| Progress.CountCompletedAppend | static/js/ui.js:148 | the completed count of a concatenation is the sum of the counts |
| Progress.CountCompletedUpdate | static/js/ui.js:514 | replacing one sub-task changes the count by the difference of the two |
| Progress.QuestProgress | static/js/ui.js:148-150 | progress lies in [0,100], is 0 for a quest without sub-tasks, and is otherwise the rounded share of completed sub-tasks |
| Progress.ProgressFull | static/js/ui.js:283-285 | a quest shows 100% exactly when it has sub-tasks and at least 99.5% of them are done |
| Progress.CompleteTaskAdvances | static/js/ui.js:511-518 | completing an open sub-task raises its quest's completed count by one |
| Progress.ActiveQuestsAsWritten | static/js/ui.js:147-153 | the dashboard lists exactly the quests whose progress is below 100% |
| Progress.CompletedQuests | static/js/ui.js:525-526 | the profile lists exactly the quests with at least one sub-task and all sub-tasks done |
| Progress.EmptyQuestIsActive | static/js/ui.js:150-152 | a quest without sub-tasks shows 0%, is on the dashboard, and is never completed |
| Progress.CompletedIsFull | static/js/ui.js:526 | a completed quest shows 100% and is not on the dashboard |
| Progress.ListsDisjoint | static/js/ui.js:152 | no quest is in both lists |
| Progress.NearlyDoneQuestHidden | static/js/ui.js:150-152 | as written, a quest with at least 200 sub-tasks and one still open is in neither list |
| Progress.HiddenQuestExample | static/js/ui.js:526 | a concrete quest with 200 of 201 sub-tasks done is in neither list |
| Progress.ActiveQuests | static/js/ui.js:147-153 | the corrected dashboard lists exactly the quests that are not completed |
| Progress.ListsPartition | static/js/ui.js:526 | with the corrected test every quest is in exactly one list, and the list sizes add up to the number of quests |
| Progress.ActiveAgreesBelow200 | static/js/ui.js:150-152 | below 200 sub-tasks the corrected and the written dashboard tests agree |
| Quiz.StoreGeneratedQuiz | static/js/ui.js:397-398 | a reply with at least one question is stored as the sub-task's quiz; any other reply leaves the sub-task unchanged |
| Quiz.CountCorrect | static/js/ui.js:433-436 | the count is at most the number of questions; it equals it iff every answer is right, and is 0 iff every answer is wrong |
| Quiz.CountCorrectAppend | static/js/ui.js:428-437 | answering one more question raises the count by one exactly when the answer is right, so the count is the number of right answers |
| Quiz.Answers | static/js/ui.js:433-435 | one answer per question, each the selected option |
| Quiz.SubmitQuiz | static/js/ui.js:424-447 | with any question unanswered the sub-task is untouched; otherwise the score is the rounded share of right answers, in [0,100], and the answers are stored, one per question |
| Quiz.SubmitQuizExtremes | static/js/ui.js:445 | all answers right score 100; all wrong score 0 |
| Quiz.SubmitQuizKeepsTask | static/js/ui.js:446-447 | a submission changes only score and answers: completion, reward and quiz stay |
| Quiz.ResetQuiz | static/js/ui.js:458-462 | quiz, score and answers are removed; text, description, completion and reward are kept |
| Quiz.ResetThenStore | static/js/ui.js:397-398 | after a reset a new quiz starts untaken, and resetting again gives back the reset sub-task |
| StoreClient.SpinStart | static/js/ui.js:620-627 | a spin starts iff none is in flight and the coins cover the cost; only then is the flag raised |
| StoreClient.SpinSettle | static/js/ui.js:644-675 | the flag is lowered; on success coins become the server's value and the won skin is appended; otherwise the store is untouched |
| StoreClient.SpinGuard | static/js/ui.js:621-627 | while a spin is in flight further spins are dropped; after the reply only the coins decide |
| StoreClient.SpinWinOwnsSkin | static/js/ui.js:652 | a won skin is owned afterwards and no owned skin is lost |
| StoreClient.SpinSettleMerging | static/js/ui.js:651-653 | corrected handler: after a win every reported newly unlocked id is held locally |
| StoreClient.EquipStart | static/js/ui.js:683-684 | the chosen skin is equipped at once and nothing else changes |
| StoreClient.EquipSettle | static/js/ui.js:689-699 | a confirmation keeps the state; a refusal or a failed request puts back the previous skin and changes nothing else |
| StoreClient.EquipRollback | static/js/ui.js:682-702 | a confirmed equip keeps the new skin; any failure restores the state exactly as it was |
| StoreClient.EquipKeepsWellformed | static/js/ui.js:682-702 | equipping an owned skin keeps the equipped skin owned, whatever the reply |
| Mascot.Request | static/js/ui.js:29-44 | a request during an animation is dropped and changes nothing; otherwise its script plays and the flag stays up while there are steps |
| Mascot.Finish | static/js/ui.js:39 | the end of an animation lowers the flag |
| Mascot.GuardDropsThenRecovers | static/js/ui.js:30-31 | a blink or talk arriving during a talk is dropped, and the next request after it ends is played |
| Mascot.ScriptShape | static/js/ui.js:33-57 | with the default skin a blink lasts 150 ms, a talk 700 ms, and both end on the default frame; other skins do not blink and rock for 400 ms on a talk |
| DailyQuests.OpenTasks | routes/api.py:16-18 | the texts listed are exactly those of the open sub-tasks, with "Unknown Task" for a sub-task without text |
| DailyQuests.OpenTasksAppend | routes/api.py:16-18 | the pool of a concatenation is the two pools one after the other, so order and repeated texts are kept |
| DailyQuests.OpenTasksCount | routes/api.py:16-18 | each open sub-task adds exactly one entry: pool size plus completed count is the number of sub-tasks |
| DailyQuests.IncompleteSubtasks | routes/api.py:13-18 | the pool holds exactly the open sub-task texts of quests not marked completed |
| DailyQuests.IncompleteSubtasksOne | routes/api.py:13-18 | a single quest contributes its own pool, in order and with repeats, when not marked completed, and nothing otherwise |
| DailyQuests.IncompleteSubtasksAppend | routes/api.py:13-18 | the pool of a concatenation of quests is the two pools one after the other |
| DailyQuests.ThirdTask | routes/api.py:41-57 | the third quest has id daily_3; the reply's task, completion and reward are kept when present, with defaults open and 20 xp for missing keys; a failed call gives the fixed fallback task |
| DailyQuests.GenerateDaily | routes/api.py:29-39 | three quests daily_1..daily_3; the first two are open and worth 20 xp; with two or more open sub-tasks they are two distinct draws from them; with one, it comes first and a static task second; with none, two distinct static tasks |
| DailyQuests.GeneratedUncompleted | routes/api.py:36-39 | all three start open unless the model's reply itself says completed |
| DailyQuests.EveryOpenTaskDrawable | routes/api.py:29-30 | every open sub-task can come up as the first daily quest |
| Chat.Truncate | routes/api.py:312-313 | the stored history never exceeds 20 messages and is the most recent suffix of what it was |
| Chat.TruncateIdempotent | routes/api.py:324-325 | truncating twice is truncating once |
| Chat.RecordReply | routes/api.py:320-325 | after a plain reply the history ends with the user's message and the reply; it has the old length plus two, capped at 20; what precedes the reply is the most recent part of the old history |
| Chat.RecordToolExchange | routes/api.py:285-313 | after a quest-creating reply the history ends with the four messages of the exchange; it has the old length plus four, capped at 20; what precedes them is the most recent part of the old history |
| Chat.TruncateAppend | routes/api.py:312-313 | capping before appending and capping again gives the same as capping once after appending |
| Chat.RecordOverCapped | routes/api.py:320-324 | recording a reply or a tool exchange over a capped history stores the same as over the full history |
| Chat.CleanHistory | routes/api.py:348-360 | the returned history holds exactly the user messages and the assistant messages with text, and is no longer than the stored one |
| Chat.CleanToolExchange | routes/api.py:350-358 | of a quest-creating exchange only the user message and a non-empty final reply are shown, in order, after the earlier history |
| ServerUser.UpdateStreak | routes/api.py:78-92 | a visit the same day changes nothing; the day after extends the streak by one; after a gap, or with no or an unreadable date, the streak is 1; the last active day becomes today |
| ServerUser.ContinuedStreak | routes/api.py:82-83 | n visits on consecutive days continuing the streak add n to it |
| ServerUser.StreakCountsConsecutiveDays | routes/api.py:78-92 | after a break, n consecutive daily visits give a streak of exactly n |
| ServerUser.LoadUserState | routes/api.py:71-92 | the first load of a day regenerates the daily quests; a later load the same day keeps them; both days become today; nothing else changes |
| ServerUser.LoadIdempotentSameDay | routes/api.py:74-92 | loading twice the same day is loading once, whatever the second draw |
| ServerUser.Grants | routes/api.py:144-167 | initiate is granted iff not held and there is a completed quest or sub-task, xp > 0, level > 1 or coins > 0; on_fire iff not held and streak ≥ 3; nothing else, nothing held, no repeats |
| ServerUser.UpdateUser | routes/api.py:129-176 | an empty body is rejected; otherwise the present keys are copied and the achievements become the base list plus the newly unlocked ids, which are reported only when non-empty, are new, and hold no repeats; daily quests are not stored |
| ServerUser.AppendKeepsNoDuplicates | routes/api.py:158-165 | appending new, distinct ids to a duplicate-free list keeps it duplicate-free |
| ServerUser.UpdateUnlocksOnce | routes/api.py:148-167 | every reported id is held afterwards, and saving the same body again (one without an achievements list) unlocks nothing |
| ServerUser.UpdateUserKeepingDailies | routes/api.py:133-142 | corrected update: as `UpdateUser`, and the body's daily quests are stored too |
| ServerStore.LockedSkins | routes/api.py:469-470 | the locked skins are exactly the unlockable ones not yet owned |
| ServerStore.LockedEmpty | routes/api.py:472 | nothing is locked exactly when every unlockable skin is owned |
| ServerStore.Roulette | routes/api.py:466-494 | refused with nothing changed iff coins < 100 or every unlockable skin is owned (coins checked first); on success coins fall by 100, a previously unowned unlockable skin is appended, and cyber_spender is granted and reported only if not held |
| ServerStore.RouletteEveryLockedSkinReachable | routes/api.py:476 | every locked skin can be the prize |
| ServerStore.RouletteShrinksLocked | routes/api.py:469-478 | each win locks exactly one skin fewer, so at most six spins can succeed |
| ServerStore.LockedDropsOne | routes/api.py:469-470 | owning one more skin of a duplicate-free pool locks one entry fewer |
| ServerStore.RouletteKeepsInvariants | routes/api.py:475-486 | a spin never makes coins negative and never adds a skin or achievement twice |
| ServerStore.Equip | routes/api.py:505-516 | no skin id, or an unowned one, is refused with nothing changed; an owned one is equipped and nothing else changes |
| ServerStore.EquippedStaysOwned | routes/api.py:511-514 | through any equip request or spin the equipped skin stays owned |
| AchievementSync.AppendMissing | static/js/api.js:17-21 | the old list is kept as a prefix; the result holds exactly the old ids and the given ids; no duplicates are introduced |
| AchievementSync.AppendMissingFresh | static/js/api.js:19-21 | new, distinct ids are appended in the order given |
| AchievementSync.AppendMissingAppend | static/js/api.js:17-21 | merging a list in two parts equals merging the first part and then the second, so ids are taken in the order the reply lists them |
| AchievementSync.MixedReplyKeepsOrder | static/js/api.js:17-21 | a reply that repeats a held id before two new ones appends the new ones in the reply's order |
| AchievementSync.AppendMissingPresent | static/js/api.js:19 | ids already held change nothing |
| AchievementSync.AppendMissingIdempotent | static/js/api.js:17-21 | merging the same ids twice is merging them once |
| AchievementSync.MergeUnlocked | static/js/api.js:16-23 | a missing or empty reply changes nothing; otherwise a missing list starts empty, old ids keep their place, every reported id is held after, no duplicates appear, and one event is raised per reported id |
| AchievementSync.MergeIdempotent | static/js/api.js:16-21 | merging the same reply twice is merging it once |
| Sync.BodyOf | static/js/api.js:8-13 | the saved body carries xp, level, coins, quests, daily quests and, when the store has them, achievements; a store without an achievement list sends no achievements key |
| Sync.SaveThenMergeAgrees | static/js/api.js:8-21 | after a save and its merge, a client that sent its list holds exactly the server's list; otherwise it holds a part of it |
| Sync.CatalogueMatchesServer | static/js/state.js:12-18 | the catalogue is the default skin followed by exactly the server's unlockable skins, in order |
| Sync.RouletteRoundTrip | static/js/ui.js:620-653 | a spin the client lets through is never refused for lack of coins, and afterwards client and server agree on coins and owned skins |
| Sync.CyberSpenderLostOnSave | static/js/ui.js:651-653 | as written, the first win grants cyber_spender on the server, and the next save from the client removes it |
| Sync.CyberSpenderKeptOnSave | static/js/ui.js:651-653 | with the merging handler the client holds the server's list after a win, and the next save keeps cyber_spender |
| Sync.DailyCompletionLost | routes/api.py:133-142 | as written, a daily quest completed and saved comes back open on a reload the same day, and can be rewarded again |
| Sync.DailyCompletionPersists | routes/api.py:133-142 | when daily quests are stored on save, the reload returns the completed quest and completing it again awards nothing |

## Left out

- DOM updates, HTML templates, Bootstrap modals, chat rendering and `marked`: presentation only.
- `fetch` wrappers other than the merge in `saveStateAPI`: network I/O. Replies are inputs (`SpinReply`, `EquipReply`, the optional `newly_unlocked`).
- Language-model calls (quest, quiz, explanation and the third daily quest): foreign services. Their parsed replies are inputs, and a failed call is `None`.
- Timers and randomness: `setTimeout`/`setInterval` delays, the 400 ms delay in `completeDailyQuest`, the mascot's random scheduling loops, and the distributions of `random.sample`, `random.choice` and `Math.random`. Draws are indices in range, and only the frame order and step lengths of an animation are kept.
- Sessions, authentication, the database and JSON encoding. The 401/404 replies for a missing session or user are not modelled. Stored dates are day numbers or `Malformed`.
- Common.RoundPercent: rounds the exact rational 100c/t half up, which only approximates `Math.round` on the floating-point quotient. They differ where the float lands just below a .5 point, e.g. 23 of 40 is 57 in JavaScript and 58 here. Floating point is not modelled.
- The leaderboard: a database query. `refresh_daily_quests` and its client handler: an unconditional `_generate_daily_quests`, already modelled by `DailyQuests.GenerateDaily`.
- `static/js/script.js`, `static/sw.js`, `app.py`, `routes/auth.py`, `routes/views.py`, `models.py` and the migration scripts: they are not part of this model.
- Keys of a chat message other than role and content: the history filter drops them.
- DailyQuests.ThirdTask: a language-model reply without a `task` key gives, in the source, a daily quest with no text. The model's `AiTask` always carries a task text, so that case is not represented.
- The server record's streak, last-active date and achievement list are assumed present. The migration adds the columns, but the `User` class in `models.py` does not declare them (see above).
- Quiz.SubmitQuiz: requires a stored quiz with at least one question. The submit button only exists for a stored quiz, and a quiz is stored only when it has a question (static/js/ui.js:397). With zero questions the source would compute 0/0.
- Rewards.CompleteTask: requires a valid quest index. The source would throw on a missing quest. An out-of-range sub-task index is modelled as a no-op.
- ServerStore.Roulette: the random choice is a position `pick` that must be in range whenever some skin is locked.
- ServerUser.LoadUserState: on the first load of a day the draw must be a valid outcome of `random.sample` / `random.choice` for the pool size.
- Mascot.Request: the model abstracts an async animation into the steps it plays. Interleavings of two animations are excluded by the guard and are not modelled further.

## Findings

| source | as written | input that shows it | evidently intended | confidence | as-written member | corrected member |
|---|---|---|---|---|---|---|
| static/js/ui.js:150-152 | the dashboard shows a quest while its rounded progress is below 100%, and the profile shows it once every sub-task is done | a quest with 200 of 201 sub-tasks done rounds to 100% and is in neither list | every quest that is not completed stays on the dashboard | not executed | Progress.NearlyDoneQuestHidden | Progress.ListsPartition |
| routes/api.py:133-142 | the update copies xp, level, coins, quests and achievements, but not `daily_quests` | complete daily_1, save, reload the same day: daily_1 is open again and its 20 xp can be earned again | the completion of a daily quest is stored | not executed | Sync.DailyCompletionLost | Sync.DailyCompletionPersists |
| static/js/ui.js:651-653 | the roulette handler ignores `newly_unlocked`; the next save posts the local achievement list and the update (routes/api.py:141-142) stores it | win a first spin, then complete any task: cyber_spender disappears from the server's list | a granted achievement is kept | not executed | Sync.CyberSpenderLostOnSave | Sync.CyberSpenderKeptOnSave |

=== FILE: achievement_sync.dfy ===
/** The client's merge of the ids the server reports as newly unlocked
    (static/js/api.js, `saveStateAPI`). The server's answer is an input;
    the `achievementUnlocked` events are returned as the list of ids they
    carry. */
module AchievementSync {
  import opened Common
  import opened Model

  /** Each id of `ids`, left to right, is pushed onto `acc` unless it is
      already there. */
  function AppendMissing<T(==,!new)>(acc: seq<T>, ids: seq<T>): (r: seq<T>)
    ensures |acc| <= |r| <= |acc| + |ids|
    ensures r[..|acc|] == acc
    ensures forall x :: x in r <==> x in acc || x in ids
    ensures NoDuplicates(acc) ==> NoDuplicates(r)
    decreases |ids|
  {
    if ids == [] then acc
    else
      var next := if ids[0] in acc then acc else acc + [ids[0]];
      assert NoDuplicates(acc) ==> NoDuplicates(next);
      var r := AppendMissing(next, ids[1..]);
      assert r[..|acc|] == next[..|acc|] == acc;
      assert forall x :: x in ids <==> x == ids[0] || x in ids[1..];
      r
  }

  /** Ids that are all new and distinct are appended as they come. */
  lemma {:induction false} AppendMissingFresh<T(!new)>(acc: seq<T>, ids: seq<T>)
    requires NoDuplicates(ids)
    requires forall x :: x in ids ==> x !in acc
    ensures AppendMissing(acc, ids) == acc + ids
    decreases |ids|
  {
    if ids != [] {
      NoDuplicatesTail(ids);
      FreshStillFresh(acc, ids);
      AppendMissingFresh(acc + [ids[0]], ids[1..]);
    }
  }

  /** After the first of the new ids is pushed, the rest are still new. */
  lemma FreshStillFresh<T(!new)>(acc: seq<T>, ids: seq<T>)
    requires ids != [] && ids[0] !in ids[1..]
    requires forall x :: x in ids ==> x !in acc
    ensures AppendMissing(acc, ids) == AppendMissing(acc + [ids[0]], ids[1..])
    ensures forall x :: x in ids[1..] ==> x !in acc + [ids[0]]
    ensures acc + [ids[0]] + ids[1..] == acc + ids
  {
    assert acc + [ids[0]] + ids[1..] == acc + ids;
    assert ids[0] in ids;
    forall x | x in ids[1..] ensures x !in acc + [ids[0]] {
      assert x in ids;
    }
  }

  /** Merging a list in two parts is merging the first part and then the
      second: the ids are taken strictly in the order given. */
  lemma {:induction false} AppendMissingAppend<T(!new)>(acc: seq<T>, a: seq<T>, b: seq<T>)
    ensures AppendMissing(acc, a + b) == AppendMissing(AppendMissing(acc, a), b)
    decreases |a|
  {
    if a == [] {
      assert a + b == b;
    } else {
      var next := if a[0] in acc then acc else acc + [a[0]];
      assert (a + b)[0] == a[0] && (a + b)[1..] == a[1..] + b;
      AppendMissingAppend(next, a[1..], b);
    }
  }

  /** Ids that are all present already change nothing. */
  lemma {:induction false} AppendMissingPresent<T(!new)>(acc: seq<T>, ids: seq<T>)
    requires forall x :: x in ids ==> x in acc
    ensures AppendMissing(acc, ids) == acc
    decreases |ids|
  {
    if ids != [] {
      assert ids[0] in acc;
      AppendMissingPresent(acc, ids[1..]);
    }
  }

  /** Merging the same ids twice is merging them once. */
  lemma AppendMissingIdempotent<T(!new)>(acc: seq<T>, ids: seq<T>)
    ensures AppendMissing(AppendMissing(acc, ids), ids) == AppendMissing(acc, ids)
  {
    AppendMissingPresent(AppendMissing(acc, ids), ids);
  }

  /** A reply mixing a held id with new ones appends the new ones in the
      order the reply lists them: holding "initiate", the reply
      ["initiate", "on_fire", "cyber_spender"] gives all three in that order. */
  lemma MixedReplyKeepsOrder<T(!new)>(held: T, x: T, y: T)
    requires held != x && held != y && x != y
    ensures AppendMissing([held], [held, x, y]) == [held, x, y]
  {
    assert [held, x, y] == [held] + [x, y];
    AppendMissingAppend([held], [held], [x, y]);
    AppendMissingPresent([held], [held]);
    AppendMissingFresh([held], [x, y]);
  }

  /** The merge in `saveStateAPI`: with no or an empty `newly_unlocked`
      nothing happens (a missing list stays missing); otherwise a missing
      list starts empty, each id is pushed unless present, and one event is
      raised per id in the reply, duplicates included. */
  function MergeUnlocked(s: State, newly: Option<seq<string>>): (r: (State, seq<string>))
    ensures newly.None? || newly.value == [] ==> r == (s, [])
    ensures newly.Some? && newly.value != [] ==>
              var ach := r.0.achievements;
              var before := s.achievements.GetOr([]);
              && r.1 == newly.value
              && ach.Some?
              && |before| <= |ach.value| && ach.value[..|before|] == before
              && (forall x :: x in ach.value <==> x in before || x in newly.value)
              && (NoDuplicates(before) ==> NoDuplicates(ach.value))
    ensures r.0 == s.(achievements := r.0.achievements)
  {
    match newly
    case None => (s, [])
    case Some(ids) =>
      if ids == [] then (s, [])
      else (s.(achievements := Some(AppendMissing(s.achievements.GetOr([]), ids))), ids)
  }

  /** Saving again with the same answer adds nothing more. */
  lemma MergeIdempotent(s: State, newly: Option<seq<string>>)
    ensures MergeUnlocked(MergeUnlocked(s, newly).0, newly).0 == MergeUnlocked(s, newly).0
  {
    if newly.Some? && newly.value != [] {
      AppendMissingIdempotent(s.achievements.GetOr([]), newly.value);
    }
  }
}

=== FILE: chat.dfy ===
/** The stored chat history on the server (routes/api.py, `api_chat` and
    `api_chat_history`): its 20-message cap and the filter applied before
    it is shown. The language-model replies are inputs. */
module Chat {
  import opened Common

  datatype Role = UserRole | AssistantRole | ToolRole | SystemRole | OtherRole(name: string)

  /** A stored message; `content` may be missing (JSON null). Keys such as
      `tool_calls` or `tool_call_id` are not modelled: the filter drops them. */
  datatype ChatMessage = ChatMessage(role: Role, content: Option<string>)

  const HistoryLimit: nat := 20

  /** `if len(h) > 20: h = h[-20:]` */
  function Truncate(h: seq<ChatMessage>): (r: seq<ChatMessage>)
    ensures |r| <= HistoryLimit
    ensures |h| <= HistoryLimit ==> r == h
    ensures |h| > HistoryLimit ==> |r| == HistoryLimit
    ensures r == h[|h| - |r|..]
  {
    if |h| > HistoryLimit then h[|h| - HistoryLimit..] else h
  }

  /** Truncating twice is truncating once. */
  lemma TruncateIdempotent(h: seq<ChatMessage>)
    ensures Truncate(Truncate(h)) == Truncate(h)
  {
  }

  /** A plain reply: the user's message and the reply are appended, then the
      history is capped. */
  function RecordReply(h: seq<ChatMessage>, userMsg: string, reply: Option<string>): (r: seq<ChatMessage>)
    ensures |r| == if |h| + 2 <= HistoryLimit then |h| + 2 else HistoryLimit
    ensures r[|r| - 2..] == [ChatMessage(UserRole, Some(userMsg)), ChatMessage(AssistantRole, reply)]
    // what is kept of the old history is its most recent part
    ensures r[..|r| - 2] == h[|h| - (|r| - 2)..]
  {
    Truncate(h + [ChatMessage(UserRole, Some(userMsg)), ChatMessage(AssistantRole, reply)])
  }

  /** A reply that created a quest: the user's message, the assistant's
      empty tool-call message, the tool's acknowledgement and the final
      reply are appended, then the history is capped. */
  function RecordToolExchange(h: seq<ChatMessage>, userMsg: string, finalReply: Option<string>): (r: seq<ChatMessage>)
    ensures |r| == if |h| + 4 <= HistoryLimit then |h| + 4 else HistoryLimit
    ensures r[|r| - 4..] == ToolExchange(userMsg, finalReply)
    // what is kept of the old history is its most recent part
    ensures r[..|r| - 4] == h[|h| - (|r| - 4)..]
  {
    Truncate(h + ToolExchange(userMsg, finalReply))
  }

  /** Capping the history before appending changes nothing once the result
      is capped again: the stored history may be capped or not. */
  lemma TruncateAppend(h: seq<ChatMessage>, x: seq<ChatMessage>)
    ensures Truncate(Truncate(h) + x) == Truncate(h + x)
  {
    if |h| > HistoryLimit {
      var hx := h + x;
      var k := |h| - HistoryLimit;
      assert Truncate(h) + x == hx[k..];
      assert hx[k..][|x|..] == hx[k + |x|..];
    }
  }

  /** Recording a reply over a capped history stores the same as over the
      full one. */
  lemma RecordOverCapped(h: seq<ChatMessage>, userMsg: string, reply: Option<string>)
    ensures RecordReply(Truncate(h), userMsg, reply) == RecordReply(h, userMsg, reply)
    ensures RecordToolExchange(Truncate(h), userMsg, reply) == RecordToolExchange(h, userMsg, reply)
  {
    TruncateAppend(h, [ChatMessage(UserRole, Some(userMsg)), ChatMessage(AssistantRole, reply)]);
    TruncateAppend(h, ToolExchange(userMsg, reply));
  }

  function ToolExchange(userMsg: string, finalReply: Option<string>): seq<ChatMessage> {
    [ChatMessage(UserRole, Some(userMsg)),
     ChatMessage(AssistantRole, Some("")),
     ChatMessage(ToolRole, Some("Quest successfully saved to database.")),
     ChatMessage(AssistantRole, finalReply)]
  }

  /** Python truthiness of the content: neither missing nor empty. */
  predicate HasText(m: ChatMessage) {
    m.content.Some? && m.content.value != ""
  }

  /** Whether `api_chat_history` returns a stored message. */
  predicate Shown(m: ChatMessage) {
    m.role == UserRole || (m.role == AssistantRole && HasText(m))
  }

  /** The history as returned to the client: only user messages and
      assistant messages with text, in stored order. */
  function CleanHistory(h: seq<ChatMessage>): (r: seq<ChatMessage>)
    ensures |r| <= |h|
    ensures forall m :: m in r <==>
              m in h && (m.role == UserRole || (m.role == AssistantRole && m.content.Some? && m.content.value != ""))
  {
    Filter(Shown, h)
  }

  /** Of a quest-creating exchange only the user's message and the final
      reply (when it has text) are shown, after what was shown before. */
  lemma CleanToolExchange(h: seq<ChatMessage>, userMsg: string, finalReply: Option<string>)
    ensures CleanHistory(h + ToolExchange(userMsg, finalReply))
            == CleanHistory(h) + [ChatMessage(UserRole, Some(userMsg))]
               + (if finalReply.Some? && finalReply.value != "" then [ChatMessage(AssistantRole, finalReply)] else [])
  {
    var ex := ToolExchange(userMsg, finalReply);
    FilterAppend(Shown, h, ex);
    ShownOfExchange(userMsg, finalReply);
  }

  lemma ShownOfExchange(userMsg: string, finalReply: Option<string>)
    ensures Filter(Shown, ToolExchange(userMsg, finalReply))
            == [ChatMessage(UserRole, Some(userMsg))]
               + (if finalReply.Some? && finalReply.value != "" then [ChatMessage(AssistantRole, finalReply)] else [])
  {
    var ex := ToolExchange(userMsg, finalReply);
    assert ex[1..][1..][1..][1..] == [];
    assert Filter(Shown, ex[1..][1..][1..]) == if Shown(ex[3]) then [ex[3]] else [];
    assert Filter(Shown, ex[1..][1..]) == Filter(Shown, ex[1..][1..][1..]);
    assert Filter(Shown, ex[1..]) == Filter(Shown, ex[1..][1..]);
  }
}

=== FILE: common.dfy ===
/** Small helpers shared by every part of the model: optional values, an
    order-preserving filter, duplicate-freedom and the integer form of
    JavaScript's rounded percentage. */
module Common {

  /** A JSON key that may be absent. */
  datatype Option<T> = None | Some(value: T) {
    function GetOr(default: T): T {
      match this
      case Some(v) => v
      case None => default
    }
  }

  /** Keeps the elements of `s` that satisfy `keep`, in their original order. */
  function Filter<T(!new)>(keep: T -> bool, s: seq<T>): (r: seq<T>)
    ensures |r| <= |s|
    ensures forall x :: x in r <==> x in s && keep(x)
  {
    if s == [] then []
    else (if keep(s[0]) then [s[0]] else []) + Filter(keep, s[1..])
  }

  /** Filtering a concatenation filters each part: the relative order of the
      kept elements is the order of the input. */
  lemma {:induction false} FilterAppend<T(!new)>(keep: T -> bool, a: seq<T>, b: seq<T>)
    ensures Filter(keep, a + b) == Filter(keep, a) + Filter(keep, b)
  {
    if a == [] {
      assert a + b == b;
    } else {
      assert (a + b)[1..] == a[1..] + b;
      FilterAppend(keep, a[1..], b);
    }
  }

  /** Filtering keeps everything when every element passes. */
  lemma {:induction false} FilterAll<T(!new)>(keep: T -> bool, s: seq<T>)
    requires forall i :: 0 <= i < |s| ==> keep(s[i])
    ensures Filter(keep, s) == s
  {
    if s != [] {
      FilterAll(keep, s[1..]);
    }
  }

  predicate NoDuplicates<T(==)>(s: seq<T>) {
    forall i, j :: 0 <= i < j < |s| ==> s[i] != s[j]
  }

  /** The head of a duplicate-free sequence does not recur, and its tail is
      duplicate-free too. */
  lemma NoDuplicatesTail<T>(s: seq<T>)
    requires s != [] && NoDuplicates(s)
    ensures s[0] !in s[1..] && NoDuplicates(s[1..])
  {
    forall k | 0 <= k < |s[1..]| ensures s[1..][k] != s[0] {
      assert s[1..][k] == s[k + 1];
    }
    forall i, j | 0 <= i < j < |s[1..]| ensures s[1..][i] != s[1..][j] {
      assert s[1..][i] == s[i + 1] && s[1..][j] == s[j + 1];
    }
  }

  /** `Math.round(c / t * 100)` for a count `c` out of `t > 0`: the nearest
      integer percentage, halves rounded up. */
  function RoundPercent(c: nat, t: nat): (p: nat)
    requires t > 0
    ensures 2 * t * p <= 200 * c + t < 2 * t * p + 2 * t
    ensures c <= t ==> p <= 100
  {
    var p := (200 * c + t) / (2 * t);
    DivBounds(200 * c + t, 2 * t);
    if c <= t then
      PercentAtMostHundred(c, t, p);
      p
    else p
  }

  lemma DivBounds(x: nat, d: nat)
    requires d > 0
    ensures d * (x / d) <= x < d * (x / d) + d
  {
  }

  lemma PercentAtMostHundred(c: nat, t: nat, p: nat)
    requires 0 < t && c <= t
    requires 2 * t * p <= 200 * c + t
    ensures p <= 100
  {
    if p > 100 {
      assert 2 * t * p >= 2 * t * 101 by {
        MulMonotone(2 * t, 101, p);
      }
      assert false;
    }
  }

  lemma MulMonotone(k: nat, a: nat, b: nat)
    requires a <= b
    ensures k * a <= k * b
  {
  }

  /** The percentage is 100 exactly when at least 99.5% of the items count. */
  lemma RoundPercentFull(c: nat, t: nat)
    requires 0 < t && c <= t
    ensures RoundPercent(c, t) == 100 <==> 200 * c >= 199 * t
  {
    var p := RoundPercent(c, t);
    if 200 * c >= 199 * t {
      if p < 100 {
        assert 2 * t * p <= 2 * t * 99 by { MulMonotone(2 * t, p, 99); }
        assert false;
      }
    } else {
      if p == 100 {
        assert false;
      }
    }
  }

  /** All items counted gives 100%, none gives 0%. */
  lemma RoundPercentExtremes(t: nat)
    requires t > 0
    ensures RoundPercent(t, t) == 100
    ensures RoundPercent(0, t) == 0
  {
    RoundPercentFull(t, t);
    var z := RoundPercent(0, t);
    if z > 0 {
      assert 2 * t * z >= 2 * t by { MulMonotone(2 * t, 1, z); }
      assert false;
    }
  }

  /** Below 200 items, only the full count rounds to 100%. */
  lemma RoundPercentBelowFull(c: nat, t: nat)
    requires 0 < t < 200 && c < t
    ensures RoundPercent(c, t) < 100
  {
    RoundPercentFull(c, t);
    assert 200 * c <= 200 * t - 200;
  }
}

=== FILE: daily_quests.dfy ===
/** Daily quest generation on the server (routes/api.py,
    `_generate_daily_quests`). The two random draws are an input `Draw`
    and the language-model third task is an optional input `AiTask`. */
module DailyQuests {
  import opened Common
  import opened Model
  import Progress

  const StaticTasksPool: seq<string> := [
    "drink water",
    "do a 5 minute warm-up",
    "air out the room",
    "read 10 pages of a book",
    "go for a 15 minute walk",
    "write down three things you're grateful for today"
  ]

  const FallbackTask: string := "Smile at your reflection"
  /** The text drawn for a sub-task that has no `task` key. */
  const UnknownTask: string := "Unknown Task"
  const DailyReward: int := 20

  /** The texts of the uncompleted sub-tasks of one quest, in order; a
      sub-task without text contributes "Unknown Task". */
  function OpenTasks(ts: seq<SubTask>): (r: seq<string>)
    ensures |r| <= |ts|
    ensures forall x :: x in r <==>
              exists i :: 0 <= i < |ts| && !ts[i].completed && ts[i].task.GetOr(UnknownTask) == x
  {
    if ts == [] then []
    else (if ts[0].completed then [] else [ts[0].task.GetOr(UnknownTask)]) + OpenTasks(ts[1..])
  }

  /** The pool of a concatenation is the pools of its parts, one after the
      other: order and repeated texts are kept. */
  lemma {:induction false} OpenTasksAppend(a: seq<SubTask>, b: seq<SubTask>)
    ensures OpenTasks(a + b) == OpenTasks(a) + OpenTasks(b)
  {
    if a == [] {
      assert a + b == b;
    } else {
      assert (a + b)[1..] == a[1..] + b;
      OpenTasksAppend(a[1..], b);
    }
  }

  /** Every uncompleted sub-task contributes exactly one entry, so the pool
      and the completed sub-tasks together account for all of them. */
  lemma {:induction false} OpenTasksCount(ts: seq<SubTask>)
    ensures |OpenTasks(ts)| + Progress.CountCompleted(ts) == |ts|
  {
    if ts != [] {
      OpenTasksCount(ts[1..]);
    }
  }

  /** A quest the generator draws from: its `status` is not "completed". */
  predicate Drawable(q: Quest) {
    q.status != Some("completed")
  }

  /** The texts of every uncompleted sub-task of every drawable quest. */
  function IncompleteSubtasks(qs: seq<Quest>): (r: seq<string>)
    ensures forall x :: x in r <==>
              exists j :: 0 <= j < |qs| && Drawable(qs[j]) && x in OpenTasks(qs[j].subTasks)
  {
    if qs == [] then []
    else
      var rest := IncompleteSubtasks(qs[1..]);
      assert forall j :: 1 <= j < |qs| ==> qs[j] == qs[1..][j - 1];
      (if Drawable(qs[0]) then OpenTasks(qs[0].subTasks) else []) + rest
  }

  /** The pool of a concatenation of quests is the pools of its parts, one
      after the other. */
  lemma {:induction false} IncompleteSubtasksAppend(a: seq<Quest>, b: seq<Quest>)
    ensures IncompleteSubtasks(a + b) == IncompleteSubtasks(a) + IncompleteSubtasks(b)
  {
    if a == [] {
      assert a + b == b;
    } else {
      assert (a + b)[1..] == a[1..] + b;
      IncompleteSubtasksAppend(a[1..], b);
    }
  }

  /** A single quest contributes its own pool, in order, when it is drawable
      and nothing otherwise. */
  lemma {:induction false} IncompleteSubtasksOne(q: Quest)
    ensures IncompleteSubtasks([q]) == if Drawable(q) then OpenTasks(q.subTasks) else []
  {
    assert [q][1..] == [];
  }

  /** The outcome of the random draws: positions in the sub-task pool, or in
      the static pool when there are too few sub-tasks. */
  datatype Draw = Draw(first: nat, second: nat)

  /** `random.sample(pool, 2)` draws two distinct positions; `random.choice`
      draws one. */
  predicate ValidDraw(n: nat, d: Draw) {
    if n >= 2 then d.first < n && d.second < n && d.first != d.second
    else if n == 1 then d.second < |StaticTasksPool|
    else d.first < |StaticTasksPool| && d.second < |StaticTasksPool| && d.first != d.second
  }

  /** The parsed reply of the language model for the third task. */
  datatype AiTask = AiTask(task: string, completed: Option<bool>, xpReward: Option<int>)

  /** The two drawn task texts. */
  function ChosenTasks(pool: seq<string>, d: Draw): (r: seq<string>)
    requires ValidDraw(|pool|, d)
    ensures |r| == 2
  {
    if |pool| >= 2 then [pool[d.first], pool[d.second]]
    else if |pool| == 1 then [pool[0], StaticTasksPool[d.second]]
    else [StaticTasksPool[d.first], StaticTasksPool[d.second]]
  }

  /** The third task: the model's reply with id "daily_3" and defaults for
      missing keys, or the fixed fallback when the call fails. */
  function ThirdTask(ai: Option<AiTask>): (r: DailyQuest)
    ensures r.id == "daily_3"
    ensures ai.None? ==> r == DailyQuest("daily_3", FallbackTask, DailyReward, false)
    ensures ai.Some? ==> r.task == ai.value.task
    ensures ai.Some? ==> (r.completed <==> ai.value.completed == Some(true))
    ensures ai.Some? && ai.value.xpReward.None? ==> r.xpReward == DailyReward
    ensures ai.Some? && ai.value.xpReward.Some? ==> r.xpReward == ai.value.xpReward.value
  {
    match ai
    case None => DailyQuest("daily_3", FallbackTask, DailyReward, false)
    case Some(t) => DailyQuest("daily_3", t.task, t.xpReward.GetOr(DailyReward), t.completed.GetOr(false))
  }

  /** `_generate_daily_quests`: always three quests `daily_1`..`daily_3`;
      the first two are worth 20 xp, start uncompleted, and are drawn from
      the user's open sub-tasks when there are at least two of them. */
  function GenerateDaily(qs: seq<Quest>, d: Draw, ai: Option<AiTask>): (r: seq<DailyQuest>)
    requires ValidDraw(|IncompleteSubtasks(qs)|, d)
    ensures |r| == 3
    ensures r[0].id == "daily_1" && r[1].id == "daily_2" && r[2].id == "daily_3"
    ensures r[0].xpReward == DailyReward && r[1].xpReward == DailyReward
    ensures !r[0].completed && !r[1].completed
    ensures var pool := IncompleteSubtasks(qs);
            |pool| >= 2 ==>
              exists i, j :: 0 <= i < |pool| && 0 <= j < |pool| && i != j
                             && r[0].task == pool[i] && r[1].task == pool[j]
    ensures var pool := IncompleteSubtasks(qs);
            |pool| == 1 ==> r[0].task == pool[0] && r[1].task in StaticTasksPool
    ensures var pool := IncompleteSubtasks(qs);
            |pool| == 0 ==>
              r[0].task in StaticTasksPool && r[1].task in StaticTasksPool && r[0].task != r[1].task
    ensures r[2] == ThirdTask(ai)
  {
    var chosen := ChosenTasks(IncompleteSubtasks(qs), d);
    [DailyQuest("daily_1", chosen[0], DailyReward, false),
     DailyQuest("daily_2", chosen[1], DailyReward, false),
     ThirdTask(ai)]
  }

  /** Every generated quest starts uncompleted unless the model's reply
      itself says `completed: true`. */
  lemma GeneratedUncompleted(qs: seq<Quest>, d: Draw, ai: Option<AiTask>)
    requires ValidDraw(|IncompleteSubtasks(qs)|, d)
    requires ai.None? || ai.value.completed != Some(true)
    ensures forall i :: 0 <= i < 3 ==> !GenerateDaily(qs, d, ai)[i].completed
  {
  }

  /** Every open sub-task of a drawable quest can be drawn as the first daily quest. */
  lemma EveryOpenTaskDrawable(qs: seq<Quest>, x: string)
    requires |IncompleteSubtasks(qs)| >= 2 && x in IncompleteSubtasks(qs)
    ensures exists d :: ValidDraw(|IncompleteSubtasks(qs)|, d) && GenerateDaily(qs, d, None)[0].task == x
  {
    var pool := IncompleteSubtasks(qs);
    var i :| 0 <= i < |pool| && pool[i] == x;
    var d := Draw(i, if i == 0 then 1 else 0);
    assert ValidDraw(|pool|, d);
    assert GenerateDaily(qs, d, None)[0].task == x;
  }
}

=== FILE: mascot.dfy ===
/** The mascot's idle animations (static/js/ui.js, `OriaMascot`). Only the
    `isAnimating` guard and the frames each animation shows are modelled;
    the random scheduling loops are left out. */
module Mascot {
  import opened Model

  datatype Frame = DefaultFrame | Blinking | Talking

  /** One step of an animation: show a frame, or play the rocking CSS
      animation, then wait `ms` milliseconds. */
  datatype Step = Show(frame: Frame, ms: nat) | Rock(ms: nat)

  datatype Animation = Blink | Talk

  /** The mascot object: only its `isAnimating` flag carries state. */
  datatype Mascot = Mascot(animating: bool)

  /** The steps `blink()` or `talk()` play for the equipped skin. Frames are
      only swapped for the default skin; other skins rock on a talk and do
      nothing on a blink. */
  function Script(a: Animation, skin: string): seq<Step> {
    match a
    case Blink =>
      if skin == DefaultSkin then [Show(Blinking, 150), Show(DefaultFrame, 0)] else []
    case Talk =>
      if skin == DefaultSkin then
        [Show(Talking, 200), Show(DefaultFrame, 150), Show(Talking, 200), Show(DefaultFrame, 150)]
      else [Rock(400)]
  }

  function Duration(steps: seq<Step>): (ms: nat)
    ensures steps == [] ==> ms == 0
  {
    if steps == [] then 0 else steps[0].ms + Duration(steps[1..])
  }

  /** A request to play `a`: dropped (nothing played, state unchanged)
      while another animation runs; otherwise the flag stays raised for as
      long as the animation has steps to play. */
  function Request(m: Mascot, a: Animation, skin: string): (r: (Mascot, seq<Step>))
    ensures m.animating ==> r == (m, [])
    ensures !m.animating ==> r.1 == Script(a, skin) && (r.0.animating <==> r.1 != [])
  {
    if m.animating then (m, [])
    else
      var steps := Script(a, skin);
      (Mascot(steps != []), steps)
  }

  /** The end of an animation lowers the flag. */
  function Finish(m: Mascot): (r: Mascot)
    ensures !r.animating
  {
    Mascot(false)
  }

  /** A blink arriving during a talk is dropped, and once the talk is over
      the next request is played. */
  lemma GuardDropsThenRecovers(skin: string, a: Animation)
    ensures var (busy, _) := Request(Mascot(false), Talk, skin);
            busy.animating
            && Request(busy, a, skin) == (busy, [])
            && Request(Finish(busy), a, skin).1 == Script(a, skin)
  {
  }

  /** With the default skin every animation ends on the default frame; a
      blink lasts 150 ms and a talk 700 ms. With any other skin no frame
      is shown and a talk rocks for 400 ms. */
  lemma ScriptShape(skin: string)
    ensures skin == DefaultSkin ==>
              Script(Blink, skin)[|Script(Blink, skin)| - 1] == Show(DefaultFrame, 0)
              && Script(Talk, skin)[|Script(Talk, skin)| - 1].frame == DefaultFrame
              && Duration(Script(Blink, skin)) == 150
              && Duration(Script(Talk, skin)) == 700
    ensures skin != DefaultSkin ==>
              Script(Blink, skin) == [] && Script(Talk, skin) == [Rock(400)]
              && Duration(Script(Talk, skin)) == 400
  {
    if skin == DefaultSkin {
      var talk := Script(Talk, skin);
      assert Duration(talk[3..]) == 150;
      assert Duration(talk[2..]) == 350 by { assert talk[2..][1..] == talk[3..]; }
      assert Duration(talk[1..]) == 500 by { assert talk[1..][1..] == talk[2..]; }
    }
  }
}

=== FILE: model.dfy ===
/** The gamification record shared by the browser client and the server:
    quests with sub-tasks and quizzes, daily quests, and the user's level,
    experience, coins and cosmetic skins. JSON keys that may be missing are
    `Option`s; everything else is always present. */
module Model {
  import opened Common

  /** One multiple-choice question of a generated mini-test. */
  datatype QuizQuestion = QuizQuestion(question: string, options: seq<string>, correctOption: int)

  /** A step of a quest. `task` is missing when the JSON has no such key;
      `quizScore` present means the quiz was taken. */
  datatype SubTask = SubTask(
    task: Option<string>,
    description: Option<string>,
    completed: bool,
    xpReward: Option<int>,
    quizData: Option<seq<QuizQuestion>>,
    quizScore: Option<int>,
    userAnswers: Option<seq<int>>)

  /** A multi-step goal; `status` is the optional JSON key the server inspects. */
  datatype Quest = Quest(title: string, difficulty: string, status: Option<string>, subTasks: seq<SubTask>)

  /** A checklist item regenerated by the server every day. */
  datatype DailyQuest = DailyQuest(id: string, task: string, xpReward: int, completed: bool)

  /** The client's state store. `streak` and `achievements` only exist once
      the server's state has been merged in. */
  datatype State = State(
    level: int,
    xp: int,
    coins: int,
    quests: seq<Quest>,
    dailyQuests: seq<DailyQuest>,
    ownedSkins: seq<string>,
    equippedSkin: string,
    streak: Option<int>,
    achievements: Option<seq<string>>)

  const DefaultSkin: string := "default"

  /** The invariants the user interface relies on. */
  predicate Wellformed(s: State) {
    && s.level >= 1
    && 0 <= s.xp < 100
    && s.coins >= 0
    && DefaultSkin in s.ownedSkins
    && s.equippedSkin in s.ownedSkins
  }

  /** The state with sub-task `ti` of quest `qi` replaced by `t`. */
  function WithSubTask(s: State, qi: nat, ti: nat, t: SubTask): (r: State)
    requires qi < |s.quests| && ti < |s.quests[qi].subTasks|
    ensures |r.quests| == |s.quests|
    ensures |r.quests[qi].subTasks| == |s.quests[qi].subTasks|
    ensures r.quests[qi].subTasks[ti] == t
    ensures r.quests[qi] == s.quests[qi].(subTasks := r.quests[qi].subTasks)
    ensures forall j :: 0 <= j < |s.quests| && j != qi ==> r.quests[j] == s.quests[j]
    ensures forall k :: 0 <= k < |s.quests[qi].subTasks| && k != ti ==>
              r.quests[qi].subTasks[k] == s.quests[qi].subTasks[k]
    ensures r == s.(quests := r.quests)
  {
    var q := s.quests[qi];
    s.(quests := s.quests[qi := q.(subTasks := q.subTasks[ti := t])])
  }
}

=== FILE: progress.dfy ===
/** Quest progress and the two quest lists of the client (static/js/ui.js):
    the active list of `renderQuests` and the completed list of
    `renderProfileQuests`. */
module Progress {
  import opened Common
  import opened Model
  import Rewards

  /** `sub_tasks.filter(t => t.completed).length` */
  function CountCompleted(ts: seq<SubTask>): (c: nat)
    ensures c <= |ts|
    ensures c == |ts| <==> forall i :: 0 <= i < |ts| ==> ts[i].completed
    ensures c == 0 <==> forall i :: 0 <= i < |ts| ==> !ts[i].completed
  {
    if ts == [] then 0
    else (if ts[0].completed then 1 else 0) + CountCompleted(ts[1..])
  }

  lemma {:induction false} CountCompletedAppend(a: seq<SubTask>, b: seq<SubTask>)
    ensures CountCompleted(a + b) == CountCompleted(a) + CountCompleted(b)
  {
    if a == [] {
      assert a + b == b;
    } else {
      assert (a + b)[1..] == a[1..] + b;
      CountCompletedAppend(a[1..], b);
    }
  }

  /** The count after replacing one sub-task changes by the difference of the two. */
  lemma {:induction false} CountCompletedUpdate(ts: seq<SubTask>, k: nat, t: SubTask)
    requires k < |ts|
    ensures CountCompleted(ts[k := t]) + (if ts[k].completed then 1 else 0)
            == CountCompleted(ts) + (if t.completed then 1 else 0)
  {
    if k == 0 {
      assert ts[k := t][1..] == ts[1..];
    } else {
      assert ts[k := t][1..] == ts[1..][k - 1 := t];
      CountCompletedUpdate(ts[1..], k - 1, t);
    }
  }

  /** `Math.round((completed / total) * 100) || 0` for one quest. */
  function QuestProgress(q: Quest): (p: nat)
    ensures p <= 100
    ensures |q.subTasks| == 0 ==> p == 0
    ensures |q.subTasks| > 0 ==>
              var c, t := CountCompleted(q.subTasks), |q.subTasks|;
              2 * t * p <= 200 * c + t < 2 * t * p + 2 * t
  {
    // 0 / 0 is NaN in JavaScript, and `NaN || 0` is 0
    if |q.subTasks| == 0 then 0 else RoundPercent(CountCompleted(q.subTasks), |q.subTasks|)
  }

  /** A quest reaches 100% exactly when at least 99.5% of its sub-tasks are done. */
  lemma ProgressFull(q: Quest)
    ensures QuestProgress(q) == 100 <==>
              |q.subTasks| > 0 && 200 * CountCompleted(q.subTasks) >= 199 * |q.subTasks|
  {
    if |q.subTasks| > 0 {
      RoundPercentFull(CountCompleted(q.subTasks), |q.subTasks|);
    }
  }

  /** Completing an open sub-task raises the completed count by one. */
  lemma CompleteTaskAdvances(s: State, qi: nat, ti: nat)
    requires qi < |s.quests| && Rewards.CanComplete(s, qi, ti)
    ensures CountCompleted(Rewards.CompleteTask(s, qi, ti).quests[qi].subTasks)
            == CountCompleted(s.quests[qi].subTasks) + 1
  {
    var ts := s.quests[qi].subTasks;
    var r := Rewards.CompleteTask(s, qi, ti);
    assert r.quests[qi].subTasks == ts[ti := ts[ti].(completed := true)];
    CountCompletedUpdate(ts, ti, ts[ti].(completed := true));
  }

  /** The profile list's test: at least one sub-task, and all of them done. */
  predicate IsCompleted(q: Quest) {
    |q.subTasks| > 0 && forall i :: 0 <= i < |q.subTasks| ==> q.subTasks[i].completed
  }

  /** The dashboard's test as written: progress below 100%. */
  predicate IsActiveAsWritten(q: Quest) {
    QuestProgress(q) < 100
  }

  /** The dashboard's quest list as the source builds it. */
  function ActiveQuestsAsWritten(qs: seq<Quest>): (r: seq<Quest>)
    ensures forall q :: q in r <==> q in qs && QuestProgress(q) < 100
  {
    Filter(IsActiveAsWritten, qs)
  }

  /** The profile's list of finished quests. */
  function CompletedQuests(qs: seq<Quest>): (r: seq<Quest>)
    ensures forall q :: q in r <==>
              q in qs && |q.subTasks| > 0 && forall i :: 0 <= i < |q.subTasks| ==> q.subTasks[i].completed
  {
    Filter(IsCompleted, qs)
  }

  /** A quest without sub-tasks is shown as active at 0% and never as completed. */
  lemma EmptyQuestIsActive(q: Quest)
    requires q.subTasks == []
    ensures QuestProgress(q) == 0
    ensures IsActiveAsWritten(q) && !IsCompleted(q)
  {
  }

  /** A completed quest shows 100% and so never appears on the dashboard. */
  lemma CompletedIsFull(q: Quest)
    requires IsCompleted(q)
    ensures QuestProgress(q) == 100 && !IsActiveAsWritten(q)
  {
    RoundPercentExtremes(|q.subTasks|);
  }

  /** No quest is in both lists. */
  lemma ListsDisjoint(q: Quest)
    ensures !(IsActiveAsWritten(q) && IsCompleted(q))
  {
    if IsCompleted(q) {
      CompletedIsFull(q);
    }
  }

  /** As written, a quest one sub-task short of done rounds to 100% once it
      has 200 or more sub-tasks, and is then in neither list. */
  lemma {:induction false} NearlyDoneQuestHidden(q: Quest)
    requires |q.subTasks| >= 200
    requires CountCompleted(q.subTasks) == |q.subTasks| - 1
    ensures !IsActiveAsWritten(q) && !IsCompleted(q)
  {
    ProgressFull(q);
  }

  /** A concrete quest with 200 of 201 sub-tasks done. */
  lemma HiddenQuestExample()
    ensures var q := Quest("Marathon", "Hard", None,
                          seq(200, _ => SubTask(Some("step"), None, true, None, None, None, None))
                          + [SubTask(Some("last step"), None, false, None, None, None, None)]);
            !IsActiveAsWritten(q) && !IsCompleted(q) && q !in ActiveQuestsAsWritten([q])
            && q !in CompletedQuests([q])
  {
    var done := seq(200, _ => SubTask(Some("step"), None, true, None, None, None, None));
    var last := [SubTask(Some("last step"), None, false, None, None, None, None)];
    var q := Quest("Marathon", "Hard", None, done + last);
    CountCompletedAppend(done, last);
    assert CountCompleted(done) == 200;
    assert CountCompleted(last) == 0;
    NearlyDoneQuestHidden(q);
  }

  /** The dashboard's intended test: every quest not yet completed. */
  predicate IsActive(q: Quest) {
    !IsCompleted(q)
  }

  /** The dashboard's list with the intended test. */
  function ActiveQuests(qs: seq<Quest>): (r: seq<Quest>)
    ensures forall q :: q in r <==> q in qs && !IsCompleted(q)
  {
    Filter(IsActive, qs)
  }

  /** With the intended test every quest is in exactly one of the two lists,
      and together the lists account for every quest. */
  lemma {:induction false} ListsPartition(qs: seq<Quest>)
    ensures forall q :: q in qs ==> (q in ActiveQuests(qs) <==> q !in CompletedQuests(qs))
    ensures |ActiveQuests(qs)| + |CompletedQuests(qs)| == |qs|
  {
    if qs != [] {
      ListsPartition(qs[1..]);
      assert qs == [qs[0]] + qs[1..];
    }
  }

  /** Below 200 sub-tasks the intended test and the written one agree. */
  lemma ActiveAgreesBelow200(q: Quest)
    requires |q.subTasks| < 200
    ensures IsActive(q) <==> IsActiveAsWritten(q)
  {
    if |q.subTasks| > 0 && !IsCompleted(q) {
      RoundPercentBelowFull(CountCompleted(q.subTasks), |q.subTasks|);
    }
    if IsCompleted(q) {
      CompletedIsFull(q);
    }
  }
}

=== FILE: quiz.dfy ===
/** The mini-test of a sub-task (static/js/ui.js, `openQuestModal`): storing
    a generated quiz, submitting answers, and "Generate New Test". */
module Quiz {
  import opened Common
  import opened Model

  /** A generated quiz is stored only when the reply holds at least one
      question; otherwise the sub-task is left as it was. */
  function StoreGeneratedQuiz(t: SubTask, reply: Option<seq<QuizQuestion>>): (r: SubTask)
    ensures reply.Some? && |reply.value| > 0 ==> r == t.(quizData := reply)
    ensures !(reply.Some? && |reply.value| > 0) ==> r == t
    ensures r.quizData.Some? && r.quizData != t.quizData ==> |r.quizData.value| > 0
  {
    if reply.Some? && |reply.value| > 0 then t.(quizData := reply) else t
  }

  /** The outcome of pressing "Submit Test". */
  datatype Submission = Unanswered | Scored(task: SubTask)

  /** How many selected options are the correct ones. */
  function CountCorrect(qs: seq<QuizQuestion>, answers: seq<int>): (c: nat)
    requires |qs| == |answers|
    ensures c <= |qs|
    ensures c == |qs| <==> forall i :: 0 <= i < |qs| ==> answers[i] == qs[i].correctOption
    ensures c == 0 <==> forall i :: 0 <= i < |qs| ==> answers[i] != qs[i].correctOption
  {
    if qs == [] then 0
    else (if answers[0] == qs[0].correctOption then 1 else 0) + CountCorrect(qs[1..], answers[1..])
  }

  /** Answering one more question adds one to the count if it is answered right. */
  lemma {:induction false} CountCorrectAppend(qs: seq<QuizQuestion>, answers: seq<int>, q: QuizQuestion, a: int)
    requires |qs| == |answers|
    ensures CountCorrect(qs + [q], answers + [a])
            == CountCorrect(qs, answers) + (if a == q.correctOption then 1 else 0)
    decreases |qs|
  {
    if qs == [] {
      assert qs + [q] == [q] && answers + [a] == [a];
    } else {
      assert (qs + [q])[1..] == qs[1..] + [q];
      assert (answers + [a])[1..] == answers[1..] + [a];
      CountCorrectAppend(qs[1..], answers[1..], q, a);
    }
  }

  predicate AllAnswered(selected: seq<Option<int>>) {
    forall i :: 0 <= i < |selected| ==> selected[i].Some?
  }

  /** The selected option indices, once every question has one. */
  function Answers(selected: seq<Option<int>>): (a: seq<int>)
    requires AllAnswered(selected)
    ensures |a| == |selected|
    ensures forall i :: 0 <= i < |a| ==> selected[i] == Some(a[i])
  {
    if selected == [] then [] else [selected[0].value] + Answers(selected[1..])
  }

  /** Submitting the radio selections `selected`, one per question of the
      stored quiz: rejected if any question is unanswered; otherwise the
      rounded percentage of correct answers and the answers are recorded.
      A stored quiz is never empty (see `StoreGeneratedQuiz`). */
  function SubmitQuiz(t: SubTask, selected: seq<Option<int>>): (r: Submission)
    requires t.quizData.Some? && |t.quizData.value| > 0
    requires |selected| == |t.quizData.value|
    ensures r.Unanswered? <==> exists i :: 0 <= i < |selected| && selected[i].None?
    ensures r.Scored? ==>
              && r.task == t.(quizScore := r.task.quizScore, userAnswers := r.task.userAnswers)
              && r.task.userAnswers.Some? && |r.task.userAnswers.value| == |selected|
              && (forall i :: 0 <= i < |selected| ==> selected[i] == Some(r.task.userAnswers.value[i]))
              && r.task.quizScore.Some? && 0 <= r.task.quizScore.value <= 100
              && var n, c := |selected|, CountCorrect(t.quizData.value, r.task.userAnswers.value);
                 2 * n * r.task.quizScore.value <= 200 * c + n < 2 * n * r.task.quizScore.value + 2 * n
  {
    if !AllAnswered(selected) then Unanswered
    else
      var answers := Answers(selected);
      var score := RoundPercent(CountCorrect(t.quizData.value, answers), |answers|);
      Scored(t.(quizScore := Some(score), userAnswers := Some(answers)))
  }

  /** All answers right scores 100, all wrong scores 0. */
  lemma SubmitQuizExtremes(t: SubTask, selected: seq<Option<int>>)
    requires t.quizData.Some? && |t.quizData.value| > 0
    requires |selected| == |t.quizData.value| && AllAnswered(selected)
    ensures var qs := t.quizData.value;
            (forall i :: 0 <= i < |qs| ==> selected[i] == Some(qs[i].correctOption)) ==>
              SubmitQuiz(t, selected).task.quizScore == Some(100)
    ensures var qs := t.quizData.value;
            (forall i :: 0 <= i < |qs| ==> selected[i] != Some(qs[i].correctOption)) ==>
              SubmitQuiz(t, selected).task.quizScore == Some(0)
  {
    RoundPercentExtremes(|selected|);
  }

  /** Submission neither completes the sub-task nor touches the quiz itself. */
  lemma SubmitQuizKeepsTask(t: SubTask, selected: seq<Option<int>>)
    requires t.quizData.Some? && |t.quizData.value| > 0
    requires |selected| == |t.quizData.value|
    ensures var r := SubmitQuiz(t, selected);
            r.Scored? ==> r.task.completed == t.completed && r.task.quizData == t.quizData
                          && r.task.xpReward == t.xpReward
  {
  }

  /** "Generate New Test": the quiz, its score and the answers are deleted,
      every other field is kept. */
  function ResetQuiz(t: SubTask): (r: SubTask)
    ensures r.quizData.None? && r.quizScore.None? && r.userAnswers.None?
    ensures r.task == t.task && r.description == t.description
    ensures r.completed == t.completed && r.xpReward == t.xpReward
  {
    t.(quizData := None, quizScore := None, userAnswers := None)
  }

  /** After a reset, storing a new quiz gives an untaken quiz; resetting it
      again returns to the same reset sub-task. */
  lemma ResetThenStore(t: SubTask, qs: seq<QuizQuestion>)
    requires |qs| > 0
    ensures var renewed := StoreGeneratedQuiz(ResetQuiz(t), Some(qs));
            renewed.quizData == Some(qs) && renewed.quizScore.None? && renewed.userAnswers.None?
            && ResetQuiz(renewed) == ResetQuiz(t)
  {
  }
}

=== FILE: rewards.dfy ===
/** Experience awards and task completion on the client (static/js/ui.js):
    `addXP`, `completeTask` and `completeDailyQuest`. Rendering, the level-up
    modal and the save request that follow each award are not modelled. */
module Rewards {
  import opened Common
  import opened Model

  /** `addXP(amount)`: experience and half the amount (rounded down) in coins
      are added; experience of 100 or more rolls over into levels. */
  function AddXP(s: State, amount: int): (r: State)
    // only level, xp and coins change
    ensures r == s.(level := r.level, xp := r.xp, coins := r.coins)
    // total experience, counting 100 per level, grows by exactly `amount`
    ensures 100 * r.level + r.xp == 100 * s.level + s.xp + amount
    // the coin gain is floor(amount / 2)
    ensures 2 * (r.coins - s.coins) <= amount < 2 * (r.coins - s.coins) + 2
    // closed form whenever the new experience is not negative
    ensures s.xp + amount >= 0 ==>
              r.xp == (s.xp + amount) % 100 && r.level == s.level + (s.xp + amount) / 100
    ensures s.xp + amount >= 0 ==> 0 <= r.xp < 100
    // the level rises exactly when the experience reaches 100
    ensures r.level > s.level <==> s.xp + amount >= 100
    ensures r.level >= s.level
  {
    var xp := s.xp + amount;
    // Dafny's division by the positive constant 2 rounds down, like Math.floor
    var coins := s.coins + amount / 2;
    if xp >= 100 then s.(level := s.level + xp / 100, xp := xp % 100, coins := coins)
    else s.(xp := xp, coins := coins)
  }

  /** Several level-ups at once: 90 xp plus 250 gives three levels and 40 xp. */
  lemma AddXPMultiLevel(s: State)
    requires s.xp == 90
    ensures AddXP(s, 250).level == s.level + 3
    ensures AddXP(s, 250).xp == 40
    ensures AddXP(s, 250).coins == s.coins + 125
  {
  }

  /** An award of zero changes nothing once experience is normalised. */
  lemma AddXPZero(s: State)
    requires 0 <= s.xp < 100
    ensures AddXP(s, 0) == s
  {
  }

  /** Non-negative awards keep the store well-formed. */
  lemma AddXPPreservesWellformed(s: State, amount: int)
    requires Wellformed(s) && amount >= 0
    ensures Wellformed(AddXP(s, amount))
  {
  }

  /** Splitting an award in two gives the same level and experience; the
      coins can fall short by one because each half is rounded down. */
  lemma AddXPSplit(s: State, a: int, b: int)
    requires 0 <= s.xp < 100 && a >= 0 && b >= 0
    ensures AddXP(AddXP(s, a), b).level == AddXP(s, a + b).level
    ensures AddXP(AddXP(s, a), b).xp == AddXP(s, a + b).xp
    ensures AddXP(s, a + b).coins - AddXP(AddXP(s, a), b).coins in {0, 1}
  {
    var two := AddXP(AddXP(s, a), b);
    var one := AddXP(s, a + b);
    assert 100 * two.level + two.xp == 100 * one.level + one.xp;
    SameTotalSameLevel(two.level, two.xp, one.level, one.xp);
  }

  lemma SameTotalSameLevel(l1: int, x1: int, l2: int, x2: int)
    requires 0 <= x1 < 100 && 0 <= x2 < 100
    requires 100 * l1 + x1 == 100 * l2 + x2
    ensures l1 == l2 && x1 == x2
  {
  }

  /** `task.xp_reward || 50`: a missing or zero reward counts as 50. */
  function RewardOf(t: SubTask): (x: int)
    ensures x != 0
    ensures t.xpReward.None? || t.xpReward.value == 0 ==> x == 50
    ensures t.xpReward.Some? && t.xpReward.value != 0 ==> x == t.xpReward.value
  {
    if t.xpReward.Some? && t.xpReward.value != 0 then t.xpReward.value else 50
  }

  /** Whether `completeTask(qi, ti)` finds an uncompleted sub-task to complete. */
  predicate CanComplete(s: State, qi: nat, ti: nat)
    requires qi < |s.quests|
  {
    ti < |s.quests[qi].subTasks| && !s.quests[qi].subTasks[ti].completed
  }

  /** `completeTask(qIndex, tIndex)`: an existing, uncompleted sub-task is
      marked completed and its reward awarded; otherwise nothing happens. */
  function CompleteTask(s: State, qi: nat, ti: nat): (r: State)
    requires qi < |s.quests|
    ensures !CanComplete(s, qi, ti) ==> r == s
    ensures CanComplete(s, qi, ti) ==>
              && |r.quests| == |s.quests|
              && |r.quests[qi].subTasks| == |s.quests[qi].subTasks|
              && r.quests[qi].subTasks[ti] == s.quests[qi].subTasks[ti].(completed := true)
              && (forall j :: 0 <= j < |s.quests| && j != qi ==> r.quests[j] == s.quests[j])
              && (forall k :: 0 <= k < |s.quests[qi].subTasks| && k != ti ==>
                    r.quests[qi].subTasks[k] == s.quests[qi].subTasks[k])
              && r.quests[qi] == s.quests[qi].(subTasks := r.quests[qi].subTasks)
              && 100 * r.level + r.xp == 100 * s.level + s.xp + RewardOf(s.quests[qi].subTasks[ti])
              && (s.xp + RewardOf(s.quests[qi].subTasks[ti]) >= 0 ==> 0 <= r.xp < 100)
              && (r.level > s.level <==> s.xp + RewardOf(s.quests[qi].subTasks[ti]) >= 100)
              && r.level >= s.level
              && r.coins == s.coins + RewardOf(s.quests[qi].subTasks[ti]) / 2
    // nothing but the quests, level, xp and coins changes
    ensures r == s.(quests := r.quests, level := r.level, xp := r.xp, coins := r.coins)
  {
    if CanComplete(s, qi, ti) then
      var t := s.quests[qi].subTasks[ti];
      AddXP(WithSubTask(s, qi, ti, t.(completed := true)), RewardOf(t))
    else s
  }

  /** Completing the same sub-task twice awards it once. */
  lemma CompleteTaskIdempotent(s: State, qi: nat, ti: nat)
    requires qi < |s.quests|
    ensures CompleteTask(CompleteTask(s, qi, ti), qi, ti) == CompleteTask(s, qi, ti)
  {
  }

  /** Completing a sub-task with a non-negative reward keeps the store
      well-formed: xp stays below 100 and the level at least 1. */
  lemma CompleteTaskPreservesWellformed(s: State, qi: nat, ti: nat)
    requires qi < |s.quests| && Wellformed(s)
    requires forall t :: t in s.quests[qi].subTasks ==> RewardOf(t) >= 0
    ensures Wellformed(CompleteTask(s, qi, ti))
  {
    if CanComplete(s, qi, ti) {
      var t := s.quests[qi].subTasks[ti];
      assert t in s.quests[qi].subTasks;
      AddXPPreservesWellformed(WithSubTask(s, qi, ti, t.(completed := true)), RewardOf(t));
    }
  }

  /** The index of the first daily quest with the given id, as `findIndex` finds it. */
  function FindDaily(ds: seq<DailyQuest>, id: string): (r: Option<nat>)
    ensures r.Some? ==> r.value < |ds| && ds[r.value].id == id
    ensures r.Some? ==> forall j :: 0 <= j < r.value ==> ds[j].id != id
    ensures r.None? ==> forall j :: 0 <= j < |ds| ==> ds[j].id != id
  {
    if ds == [] then None
    else if ds[0].id == id then Some(0)
    else match FindDaily(ds[1..], id)
      case Some(i) => Some(i + 1)
      case None => None
  }

  /** `i` is the first position holding a daily quest with this id. */
  predicate FirstWithId(ds: seq<DailyQuest>, id: string, i: int) {
    0 <= i < |ds| && ds[i].id == id && forall j :: 0 <= j < i ==> ds[j].id != id
  }

  /** `completeDailyQuest(questId)`: the first daily quest with that id, if it
      is not completed yet, is marked completed and its reward awarded;
      a missing id or an already completed quest leaves the store unchanged. */
  function CompleteDailyQuest(s: State, id: string): (r: State)
    ensures (forall i :: FirstWithId(s.dailyQuests, id, i) ==> s.dailyQuests[i].completed) ==> r == s
    ensures forall i :: FirstWithId(s.dailyQuests, id, i) && !s.dailyQuests[i].completed ==>
              && r.dailyQuests == s.dailyQuests[i := s.dailyQuests[i].(completed := true)]
              && 100 * r.level + r.xp == 100 * s.level + s.xp + s.dailyQuests[i].xpReward
              && (s.xp + s.dailyQuests[i].xpReward >= 0 ==> 0 <= r.xp < 100)
              && (r.level > s.level <==> s.xp + s.dailyQuests[i].xpReward >= 100)
              && r.level >= s.level
              && r.coins == s.coins + s.dailyQuests[i].xpReward / 2
    // nothing but the daily quests, level, xp and coins changes
    ensures r == s.(dailyQuests := r.dailyQuests, level := r.level, xp := r.xp, coins := r.coins)
  {
    match FindDaily(s.dailyQuests, id)
    case Some(i) =>
      var d := s.dailyQuests[i];
      if d.completed then s
      else AddXP(s.(dailyQuests := s.dailyQuests[i := d.(completed := true)]), d.xpReward)
    case None => s
  }

  /** Completing a daily quest with a non-negative reward keeps the store
      well-formed. */
  lemma CompleteDailyQuestPreservesWellformed(s: State, id: string)
    requires Wellformed(s)
    requires forall d :: d in s.dailyQuests ==> d.xpReward >= 0
    ensures Wellformed(CompleteDailyQuest(s, id))
  {
    match FindDaily(s.dailyQuests, id)
    case Some(i) =>
      var d := s.dailyQuests[i];
      assert d in s.dailyQuests;
      if !d.completed {
        AddXPPreservesWellformed(s.(dailyQuests := s.dailyQuests[i := d.(completed := true)]), d.xpReward);
      }
    case None =>
  }

  /** Completing the same daily quest twice awards it once. */
  lemma CompleteDailyQuestIdempotent(s: State, id: string)
    ensures CompleteDailyQuest(CompleteDailyQuest(s, id), id) == CompleteDailyQuest(s, id)
  {
    match FindDaily(s.dailyQuests, id)
    case Some(i) =>
      var once := CompleteDailyQuest(s, id);
      assert FindDaily(once.dailyQuests, id) == Some(i) by {
        FindDailyStable(s.dailyQuests, once.dailyQuests, id, i);
      }
    case None =>
  }

  /** Completing a daily quest changes no id, so the search finds the same one. */
  lemma FindDailyStable(a: seq<DailyQuest>, b: seq<DailyQuest>, id: string, i: nat)
    requires FindDaily(a, id) == Some(i)
    requires |a| == |b| && forall j :: 0 <= j < |a| ==> a[j].id == b[j].id
    ensures FindDaily(b, id) == Some(i)
  {
  }
}

=== FILE: server_store.dfy ===
/** The server's skin shop (routes/api.py, `api_store_roulette` and
    `api_store_equip`). The roulette's random choice is an input position. */
module ServerStore {
  import opened Common
  import opened ServerUser

  const RouletteCost: int := 100
  const UnlockableSkins: seq<string> := ["skin_1", "skin_2", "skin_3", "skin_4", "skin_5", "skin_6"]
  const CyberSpender: string := "cyber_spender"

  datatype StoreError = NotEnoughCoins | AllSkinsUnlocked | MissingSkinId | SkinNotOwned

  /** The unlockable skins not owned yet, in catalogue order. */
  function LockedSkins(owned: seq<string>): (r: seq<string>)
    ensures forall x :: x in r <==> x in UnlockableSkins && x !in owned
  {
    LockedIn(UnlockableSkins, owned)
  }

  /** The entries of `pool` not in `owned`, in order. */
  function LockedIn(pool: seq<string>, owned: seq<string>): (r: seq<string>)
    ensures |r| <= |pool|
    ensures forall x :: x in r <==> x in pool && x !in owned
  {
    if pool == [] then []
    else (if pool[0] in owned then [] else [pool[0]]) + LockedIn(pool[1..], owned)
  }

  /** Nothing is locked exactly when every unlockable skin is owned. */
  lemma LockedEmpty(owned: seq<string>)
    ensures LockedSkins(owned) == [] <==> forall x :: x in UnlockableSkins ==> x in owned
  {
    var locked := LockedSkins(owned);
    if locked != [] {
      assert locked[0] in locked;
    }
  }

  /** The `error` text of each refusal. */
  function Message(e: StoreError): string {
    match e
    case NotEnoughCoins => "Not enough coins"
    case AllSkinsUnlocked => "All currently available skins are already unlocked!"
    case MissingSkinId => "Invalid payload"
    case SkinNotOwned => "Skin not owned"
  }

  datatype RouletteReply =
    | RouletteWon(coins: int, unlockedSkin: string, newlyUnlocked: Option<seq<string>>)
    | RouletteRefused(error: StoreError)

  /** `api_store_roulette`: refused with nothing changed when coins are
      below the cost or every unlockable skin is owned; otherwise the cost
      is paid, the locked skin at position `pick` is added to the owned
      skins, and "cyber_spender" is granted on the first spin. */
  function Roulette(u: UserRecord, pick: nat): (r: (UserRecord, RouletteReply))
    requires LockedSkins(u.ownedSkins) != [] ==> pick < |LockedSkins(u.ownedSkins)|
    ensures r.1.RouletteRefused? <==>
              u.coins < RouletteCost || forall x :: x in UnlockableSkins ==> x in u.ownedSkins
    ensures r.1.RouletteRefused? ==> r.0 == u
    ensures u.coins < RouletteCost ==> r.1 == RouletteRefused(NotEnoughCoins)
    ensures r.1.RouletteWon? ==>
              var v, skin := r.0, r.1.unlockedSkin;
              && v.coins == u.coins - RouletteCost && r.1.coins == v.coins
              && skin in UnlockableSkins && skin !in u.ownedSkins
              && v.ownedSkins == u.ownedSkins + [skin]
              && CyberSpender in v.achievements
              && (CyberSpender in u.achievements ==>
                    v.achievements == u.achievements && r.1.newlyUnlocked.None?)
              && (CyberSpender !in u.achievements ==>
                    v.achievements == u.achievements + [CyberSpender]
                    && r.1.newlyUnlocked == Some([CyberSpender]))
              && v == u.(coins := v.coins, ownedSkins := v.ownedSkins, achievements := v.achievements)
  {
    var locked := LockedSkins(u.ownedSkins);
    LockedEmpty(u.ownedSkins);
    if u.coins < RouletteCost then (u, RouletteRefused(NotEnoughCoins))
    else if locked == [] then (u, RouletteRefused(AllSkinsUnlocked))
    else
      var skin := locked[pick];
      assert skin in locked;
      var first := CyberSpender !in u.achievements;
      var v := u.(coins := u.coins - RouletteCost, ownedSkins := u.ownedSkins + [skin],
                  achievements := if first then u.achievements + [CyberSpender] else u.achievements);
      (v, RouletteWon(v.coins, skin, if first then Some([CyberSpender]) else None))
  }

  /** Every locked skin is the prize for some outcome of the draw. */
  lemma RouletteEveryLockedSkinReachable(u: UserRecord, skin: string)
    requires u.coins >= RouletteCost && skin in LockedSkins(u.ownedSkins)
    ensures exists pick: nat :: pick < |LockedSkins(u.ownedSkins)| && Roulette(u, pick).1.RouletteWon?
                           && Roulette(u, pick).1.unlockedSkin == skin
  {
    var locked := LockedSkins(u.ownedSkins);
    var pick :| 0 <= pick < |locked| && locked[pick] == skin;
    var r := Roulette(u, pick);
    assert r.1.RouletteWon? && r.1.unlockedSkin == skin;
  }

  /** Each win locks one skin fewer, so at most six spins can ever succeed. */
  lemma RouletteShrinksLocked(u: UserRecord, pick: nat)
    requires LockedSkins(u.ownedSkins) != [] ==> pick < |LockedSkins(u.ownedSkins)|
    requires Roulette(u, pick).1.RouletteWon?
    ensures |LockedSkins(Roulette(u, pick).0.ownedSkins)| + 1 == |LockedSkins(u.ownedSkins)|
  {
    var r := Roulette(u, pick);
    var skin := r.1.unlockedSkin;
    assert r.0.ownedSkins == u.ownedSkins + [skin];
    assert NoDuplicates(UnlockableSkins);
    LockedDropsOne(UnlockableSkins, u.ownedSkins, skin);
  }

  /** Owning one more skin of a duplicate-free pool locks one entry fewer. */
  lemma {:induction false} LockedDropsOne(pool: seq<string>, owned: seq<string>, skin: string)
    requires NoDuplicates(pool) && skin in pool && skin !in owned
    ensures |LockedIn(pool, owned + [skin])| + 1 == |LockedIn(pool, owned)|
  {
    if pool[0] == skin {
      NoDuplicatesTail(pool);
      LockedSame(pool[1..], owned, skin);
    } else {
      assert skin in pool[1..] by {
        var k :| 0 <= k < |pool| && pool[k] == skin;
        assert pool[1..][k - 1] == skin;
      }
      NoDuplicatesTail(pool);
      LockedDropsOne(pool[1..], owned, skin);
    }
  }

  /** Owning a skin outside the pool changes nothing. */
  lemma {:induction false} LockedSame(pool: seq<string>, owned: seq<string>, skin: string)
    requires skin !in pool
    ensures LockedIn(pool, owned + [skin]) == LockedIn(pool, owned)
  {
    if pool != [] {
      assert pool[0] in owned + [skin] <==> pool[0] in owned;
      assert skin !in pool[1..];
      LockedSame(pool[1..], owned, skin);
    }
  }

  /** A spin never drives coins negative, and never adds a skin or an
      achievement twice. */
  lemma RouletteKeepsInvariants(u: UserRecord, pick: nat)
    requires LockedSkins(u.ownedSkins) != [] ==> pick < |LockedSkins(u.ownedSkins)|
    requires u.coins >= 0 && NoDuplicates(u.ownedSkins) && NoDuplicates(u.achievements)
    ensures var v := Roulette(u, pick).0;
            v.coins >= 0 && NoDuplicates(v.ownedSkins) && NoDuplicates(v.achievements)
  {
    var (v, reply) := Roulette(u, pick);
    if reply.RouletteWon? {
      AppendKeepsNoDuplicates(u.ownedSkins, [reply.unlockedSkin]);
      if CyberSpender !in u.achievements {
        AppendKeepsNoDuplicates(u.achievements, [CyberSpender]);
      }
    }
  }

  datatype EquipReply = Equipped(skin: string) | EquipRefused(error: StoreError)

  /** `api_store_equip`: a request without a skin id, or naming a skin the
      user does not own, is refused with nothing changed; otherwise the skin
      is equipped. */
  function Equip(u: UserRecord, skinId: Option<string>): (r: (UserRecord, EquipReply))
    ensures skinId.None? ==> r == (u, EquipRefused(MissingSkinId))
    ensures skinId.Some? && skinId.value !in u.ownedSkins ==> r == (u, EquipRefused(SkinNotOwned))
    ensures skinId.Some? && skinId.value in u.ownedSkins ==>
              r.1 == Equipped(skinId.value) && r.0.equippedSkin == skinId.value
              && r.0 == u.(equippedSkin := r.0.equippedSkin)
  {
    match skinId
    case None => (u, EquipRefused(MissingSkinId))
    case Some(id) =>
      if id !in u.ownedSkins then (u, EquipRefused(SkinNotOwned))
      else (u.(equippedSkin := id), Equipped(id))
  }

  /** The equipped skin stays an owned one through any equip request and any spin. */
  lemma EquippedStaysOwned(u: UserRecord, skinId: Option<string>, pick: nat)
    requires u.equippedSkin in u.ownedSkins
    requires LockedSkins(u.ownedSkins) != [] ==> pick < |LockedSkins(u.ownedSkins)|
    ensures Equip(u, skinId).0.equippedSkin in Equip(u, skinId).0.ownedSkins
    ensures Roulette(u, pick).0.equippedSkin in Roulette(u, pick).0.ownedSkins
  {
  }
}

=== FILE: server_user.dfy ===
/** The server's user record and the rules of routes/api.py that change it
    on load and on save: the daily streak and daily-quest refresh of
    `get_user_state`, and the field copy and achievement grants of
    `update_user_state`. Sessions, the database and JSON encoding are left
    out; "today" is a day number. */
module ServerUser {
  import opened Common
  import opened Model
  import Chat
  import DailyQuests

  /** A stored ISO date: empty, not parseable, or a day number. */
  datatype StoredDate = Blank | Malformed | Day(n: int)

  datatype UserRecord = UserRecord(
    level: int,
    xp: int,
    coins: int,
    quests: seq<Quest>,
    dailyQuests: seq<DailyQuest>,
    ownedSkins: seq<string>,
    equippedSkin: string,
    achievements: seq<string>,
    streak: int,
    lastActive: StoredDate,
    lastDaily: StoredDate,
    chatHistory: seq<Chat.ChatMessage>)

  // ---------------------------------------------------------------- streak

  /** The streak block of `get_user_state`: a visit on the day after the
      last active day extends the streak; a visit after a gap, or with no
      or an unparseable last date, restarts it at 1; a second visit on the
      same day changes nothing. */
  function UpdateStreak(u: UserRecord, today: int): (r: UserRecord)
    ensures r.lastActive == Day(today)
    ensures u.lastActive == Day(today) ==> r == u
    ensures u.lastActive == Day(today - 1) ==> r.streak == u.streak + 1
    ensures u.lastActive != Day(today) && u.lastActive != Day(today - 1) ==> r.streak == 1
    ensures r == u.(streak := r.streak, lastActive := r.lastActive)
  {
    if u.lastActive == Day(today) then u
    else
      var streak := match u.lastActive
        case Day(last) => if last == today - 1 then u.streak + 1 else 1
        case _ => 1;
      u.(streak := streak, lastActive := Day(today))
  }

  /** The record after a visit on each of `days`, in order. */
  function Visits(u: UserRecord, days: seq<int>): UserRecord
    decreases |days|
  {
    if days == [] then u else Visits(UpdateStreak(u, days[0]), days[1..])
  }

  /** The `n` consecutive days starting at `d`. */
  function Days(d: int, n: nat): (ds: seq<int>)
    ensures |ds| == n && forall i :: 0 <= i < n ==> ds[i] == d + i
  {
    seq(n, i => d + i)
  }

  /** Continuing from the day before, `n` daily visits add `n` to the streak. */
  lemma {:induction false} ContinuedStreak(u: UserRecord, d: int, n: nat)
    requires u.lastActive == Day(d - 1)
    ensures Visits(u, Days(d, n)).streak == u.streak + n
    ensures n > 0 ==> Visits(u, Days(d, n)).lastActive == Day(d + n - 1)
    decreases n
  {
    if n > 0 {
      var v := UpdateStreak(u, d);
      assert Days(d, n)[1..] == Days(d + 1, n - 1);
      ContinuedStreak(v, d + 1, n - 1);
    }
  }

  /** After a break, `n` consecutive daily visits give a streak of exactly `n`. */
  lemma StreakCountsConsecutiveDays(u: UserRecord, d: int, n: nat)
    requires n > 0
    requires u.lastActive != Day(d - 1) && u.lastActive != Day(d)
    ensures Visits(u, Days(d, n)).streak == n
  {
    var v := UpdateStreak(u, d);
    assert Days(d, n)[1..] == Days(d + 1, n - 1);
    ContinuedStreak(v, d + 1, n - 1);
  }

  // ----------------------------------------------------------------- load

  /** What `get_user_state` does to the record before answering: on the
      first load of a day the daily quests are regenerated, then the
      streak is updated. */
  function LoadUserState(u: UserRecord, today: int, d: DailyQuests.Draw, ai: Option<DailyQuests.AiTask>): (r: UserRecord)
    requires u.lastDaily != Day(today) ==>
               DailyQuests.ValidDraw(|DailyQuests.IncompleteSubtasks(u.quests)|, d)
    ensures r.lastDaily == Day(today) && r.lastActive == Day(today)
    ensures u.lastDaily == Day(today) ==> r.dailyQuests == u.dailyQuests
    ensures u.lastDaily != Day(today) ==> r.dailyQuests == DailyQuests.GenerateDaily(u.quests, d, ai)
    ensures r == u.(dailyQuests := r.dailyQuests, lastDaily := r.lastDaily, streak := r.streak,
                    lastActive := r.lastActive)
  {
    var refreshed :=
      if u.lastDaily != Day(today) then
        u.(dailyQuests := DailyQuests.GenerateDaily(u.quests, d, ai), lastDaily := Day(today))
      else u;
    UpdateStreak(refreshed, today)
  }

  /** Loading again on the same day changes nothing, whatever the draws. */
  lemma LoadIdempotentSameDay(u: UserRecord, today: int, d: DailyQuests.Draw, ai: Option<DailyQuests.AiTask>,
                              d2: DailyQuests.Draw, ai2: Option<DailyQuests.AiTask>)
    requires u.lastDaily != Day(today) ==>
               DailyQuests.ValidDraw(|DailyQuests.IncompleteSubtasks(u.quests)|, d)
    ensures LoadUserState(LoadUserState(u, today, d, ai), today, d2, ai2) == LoadUserState(u, today, d, ai)
  {
  }

  // --------------------------------------------------------------- update

  /** The keys of an update request body that the model tracks. `None`
      means the key is absent. */
  datatype Body = Body(
    xp: Option<int>,
    level: Option<int>,
    coins: Option<int>,
    quests: Option<seq<Quest>>,
    achievements: Option<seq<string>>,
    dailyQuests: Option<seq<DailyQuest>>)

  /** The update endpoint's answer; `newlyUnlocked` is only present when
      something was unlocked. */
  datatype UpdateReply = Updated(newlyUnlocked: Option<seq<string>>) | InvalidPayload

  const Initiate: string := "initiate"
  const OnFire: string := "on_fire"
  const OnFireStreak: int := 3

  /** Some quest is marked completed or has a completed sub-task. */
  predicate ShowsProgress(qs: seq<Quest>) {
    exists i :: 0 <= i < |qs| &&
      (qs[i].status == Some("completed") ||
       exists k :: 0 <= k < |qs[i].subTasks| && qs[i].subTasks[k].completed)
  }

  /** The achievements granted by a save, given the achievements `base`
      after the copy, the record `v` after the copy and the body. */
  function Grants(base: seq<string>, v: UserRecord, b: Body, streak: int): (newly: seq<string>)
    ensures NoDuplicates(newly)
    ensures forall x :: x in newly ==> x !in base
    ensures Initiate in newly <==>
              Initiate !in base
              && ((b.quests.Some? && ShowsProgress(b.quests.value)) || v.xp > 0 || v.level > 1 || v.coins > 0)
    ensures OnFire in newly <==> OnFire !in base && streak >= OnFireStreak
    ensures forall x :: x in newly ==> x == Initiate || x == OnFire
  {
    var initiate :=
      if Initiate !in base
         && ((b.quests.Some? && ShowsProgress(b.quests.value)) || v.xp > 0 || v.level > 1 || v.coins > 0)
      then [Initiate] else [];
    var onFire := if OnFire !in base + initiate && streak >= OnFireStreak then [OnFire] else [];
    initiate + onFire
  }

  /** `update_user_state` as written: an empty body is rejected; otherwise
      xp, level, coins, quests and achievements present in the body are
      copied, then "initiate" and "on_fire" are granted if earned and not
      held. The body's daily quests are ignored. */
  function UpdateUser(u: UserRecord, body: Option<Body>): (r: (UserRecord, UpdateReply))
    ensures body.None? ==> r == (u, InvalidPayload)
    ensures body.Some? ==>
              var b, v := body.value, r.0;
              var base := b.achievements.GetOr(u.achievements);
              && r.1.Updated?
              && v.xp == b.xp.GetOr(u.xp) && v.level == b.level.GetOr(u.level)
              && v.coins == b.coins.GetOr(u.coins) && v.quests == b.quests.GetOr(u.quests)
              && v == u.(xp := v.xp, level := v.level, coins := v.coins, quests := v.quests,
                         achievements := v.achievements)
              && v.achievements == base + r.1.newlyUnlocked.GetOr([])
              && (r.1.newlyUnlocked.Some? ==> |r.1.newlyUnlocked.value| > 0)
              && NoDuplicates(r.1.newlyUnlocked.GetOr([]))
              && (forall x :: x in r.1.newlyUnlocked.GetOr([]) ==> x !in base)
              && (Initiate in v.achievements <==>
                    Initiate in base || (b.quests.Some? && ShowsProgress(b.quests.value))
                    || v.xp > 0 || v.level > 1 || v.coins > 0)
              && (OnFire in v.achievements <==> OnFire in base || u.streak >= OnFireStreak)
              && (NoDuplicates(base) ==> NoDuplicates(v.achievements))
  {
    match body
    case None => (u, InvalidPayload)
    case Some(b) =>
      var base := b.achievements.GetOr(u.achievements);
      var copied := u.(xp := b.xp.GetOr(u.xp), level := b.level.GetOr(u.level),
                       coins := b.coins.GetOr(u.coins), quests := b.quests.GetOr(u.quests),
                       achievements := base);
      var newly := Grants(base, copied, b, u.streak);
      AppendKeepsNoDuplicates(base, newly);
      (copied.(achievements := base + newly), Updated(if newly == [] then None else Some(newly)))
  }

  /** Appending fresh, duplicate-free ids keeps a list duplicate-free. */
  lemma AppendKeepsNoDuplicates(a: seq<string>, b: seq<string>)
    requires NoDuplicates(b) && forall x :: x in b ==> x !in a
    ensures NoDuplicates(a) ==> NoDuplicates(a + b)
  {
    if NoDuplicates(a) {
      forall i, j | 0 <= i < j < |a + b| ensures (a + b)[i] != (a + b)[j] {
        if j >= |a| && i < |a| {
          assert (a + b)[j] in b;
        }
      }
    }
  }

  /** Every id reported as newly unlocked is held afterwards, and a second
      save of the same body unlocks nothing more. */
  lemma UpdateUnlocksOnce(u: UserRecord, b: Body)
    requires b.achievements.None?
    ensures var (v, reply) := UpdateUser(u, Some(b));
            (forall x :: x in reply.newlyUnlocked.GetOr([]) ==> x in v.achievements)
            && UpdateUser(v, Some(b)).1 == Updated(None)
  {
  }

  /** The update as intended: like `UpdateUser`, but the body's daily
      quests are stored too. */
  function UpdateUserKeepingDailies(u: UserRecord, body: Option<Body>): (r: (UserRecord, UpdateReply))
    ensures body.Some? ==> r.0.dailyQuests == body.value.dailyQuests.GetOr(u.dailyQuests)
    ensures r.1 == UpdateUser(u, body).1
    ensures r.0 == UpdateUser(u, body).0.(dailyQuests := r.0.dailyQuests)
  {
    var (v, reply) := UpdateUser(u, body);
    match body
    case None => (v, reply)
    case Some(b) => (v.(dailyQuests := b.dailyQuests.GetOr(v.dailyQuests)), reply)
  }
}

=== FILE: state_store.dfy ===
/** The client's state store (static/js/state.js): the initial record, the
    static skin catalogue, and the shallow merge used to load server state. */
module StateStore {
  import opened Common
  import opened Model

  /** The state before the server's copy has been loaded. */
  function InitialState(): (s: State)
    ensures Wellformed(s)
    ensures s.level == 1 && s.xp == 0 && s.coins == 0
    ensures s.quests == [] && s.dailyQuests == []
    ensures s.ownedSkins == [DefaultSkin] && s.equippedSkin == DefaultSkin
    ensures s.streak.None? && s.achievements.None?
  {
    State(1, 0, 0, [], [], ["default"], "default", None, None)
  }

  /** One entry of the skin shop. */
  datatype StoreItem = StoreItem(id: string, name: string, cost: nat, image: string)

  const StoreItems: seq<StoreItem> := [
    StoreItem("default", "Original", 0, "/static/img/IMG_8442.PNG"),
    StoreItem("skin_1", "Variant Alpha", 100, "/static/img/skins/IMG_8473.PNG"),
    StoreItem("skin_2", "Variant Beta", 100, "/static/img/skins/IMG_8474.PNG"),
    StoreItem("skin_3", "Variant Gamma", 100, "/static/img/skins/IMG_8475.PNG"),
    StoreItem("skin_4", "Variant Delta", 100, "/static/img/skins/IMG_8476.PNG"),
    StoreItem("skin_5", "Variant Epsilon", 100, "/static/img/skins/IMG_8477.PNG"),
    StoreItem("skin_6", "Variant Zeta", 100, "/static/img/skins/IMG_8478.PNG")
  ]

  /** The catalogue's ids, in catalogue order. */
  function CatalogueIds(items: seq<StoreItem>): (ids: seq<string>)
    ensures |ids| == |items|
    ensures forall i :: 0 <= i < |items| ==> ids[i] == items[i].id
  {
    if items == [] then [] else [items[0].id] + CatalogueIds(items[1..])
  }

  /** Ids are unique; the default skin is free and comes first; every other
      skin costs 100 coins. */
  lemma CatalogueShape()
    ensures NoDuplicates(CatalogueIds(StoreItems))
    ensures StoreItems[0].id == DefaultSkin && StoreItems[0].cost == 0
    ensures forall i :: 1 <= i < |StoreItems| ==>
              StoreItems[i].id != DefaultSkin && StoreItems[i].cost == 100
  {
    CatalogueIdsValue();
    DistinctByLastChar(["default", "skin_1", "skin_2", "skin_3", "skin_4", "skin_5", "skin_6"]);
  }

  /** The catalogue's ids, spelled out. */
  lemma CatalogueIdsValue()
    ensures CatalogueIds(StoreItems) == ["default", "skin_1", "skin_2", "skin_3", "skin_4", "skin_5", "skin_6"]
  {
    var ids := CatalogueIds(StoreItems);
    assert |ids| == 7;
    assert ids[0] == "default" && ids[1] == "skin_1" && ids[2] == "skin_2" && ids[3] == "skin_3";
    assert ids[4] == "skin_4" && ids[5] == "skin_5" && ids[6] == "skin_6";
  }

  /** Non-empty strings whose last characters differ pairwise are distinct. */
  lemma DistinctByLastChar(ids: seq<string>)
    requires forall i :: 0 <= i < |ids| ==> ids[i] != []
    requires forall i, j :: 0 <= i < j < |ids| ==> ids[i][|ids[i]| - 1] != ids[j][|ids[j]| - 1]
    ensures NoDuplicates(ids)
  {
  }

  /** The top-level keys of the state record. */
  datatype Key = Level | Xp | Coins | Quests | DailyQuests | OwnedSkins | EquippedSkin | Streak | Achievements

  /** The value stored under a key, as one tagged union. */
  datatype Value =
    | IntV(i: int)
    | QuestsV(qs: seq<Quest>)
    | DailiesV(ds: seq<DailyQuest>)
    | SkinsV(ids: seq<string>)
    | SkinV(id: string)
    | MaybeIntV(oi: Option<int>)
    | MaybeIdsV(oids: Option<seq<string>>)

  function Field(s: State, k: Key): Value {
    match k
    case Level => IntV(s.level)
    case Xp => IntV(s.xp)
    case Coins => IntV(s.coins)
    case Quests => QuestsV(s.quests)
    case DailyQuests => DailiesV(s.dailyQuests)
    case OwnedSkins => SkinsV(s.ownedSkins)
    case EquippedSkin => SkinV(s.equippedSkin)
    case Streak => MaybeIntV(s.streak)
    case Achievements => MaybeIdsV(s.achievements)
  }

  /** An object whose keys are a subset of the state's keys (a server response). */
  datatype Patch = Patch(
    level: Option<int>,
    xp: Option<int>,
    coins: Option<int>,
    quests: Option<seq<Quest>>,
    dailyQuests: Option<seq<DailyQuest>>,
    ownedSkins: Option<seq<string>>,
    equippedSkin: Option<string>,
    streak: Option<int>,
    achievements: Option<seq<string>>)

  /** The value a patch carries for a key, if the key is present. */
  function Entry(p: Patch, k: Key): Option<Value> {
    match k
    case Level => if p.level.Some? then Some(IntV(p.level.value)) else None
    case Xp => if p.xp.Some? then Some(IntV(p.xp.value)) else None
    case Coins => if p.coins.Some? then Some(IntV(p.coins.value)) else None
    case Quests => if p.quests.Some? then Some(QuestsV(p.quests.value)) else None
    case DailyQuests => if p.dailyQuests.Some? then Some(DailiesV(p.dailyQuests.value)) else None
    case OwnedSkins => if p.ownedSkins.Some? then Some(SkinsV(p.ownedSkins.value)) else None
    case EquippedSkin => if p.equippedSkin.Some? then Some(SkinV(p.equippedSkin.value)) else None
    case Streak => if p.streak.Some? then Some(MaybeIntV(Some(p.streak.value))) else None
    case Achievements => if p.achievements.Some? then Some(MaybeIdsV(Some(p.achievements.value))) else None
  }

  /** `Object.assign(OriaState, newState)`: every key present in the patch
      is overwritten with the patch's value, every other key keeps its value. */
  function SetState(s: State, p: Patch): (r: State)
    ensures forall k :: Field(r, k) == Entry(p, k).GetOr(Field(s, k))
  {
    State(
      p.level.GetOr(s.level),
      p.xp.GetOr(s.xp),
      p.coins.GetOr(s.coins),
      p.quests.GetOr(s.quests),
      p.dailyQuests.GetOr(s.dailyQuests),
      p.ownedSkins.GetOr(s.ownedSkins),
      p.equippedSkin.GetOr(s.equippedSkin),
      if p.streak.Some? then p.streak else s.streak,
      if p.achievements.Some? then p.achievements else s.achievements)
  }

  /** Two states agreeing on every key are the same state. */
  lemma FieldsDetermineState(s: State, t: State)
    requires forall k :: Field(s, k) == Field(t, k)
    ensures s == t
  {
    assert Field(s, Level) == Field(t, Level);
    assert Field(s, Xp) == Field(t, Xp);
    assert Field(s, Coins) == Field(t, Coins);
    assert Field(s, Quests) == Field(t, Quests);
    assert Field(s, DailyQuests) == Field(t, DailyQuests);
    assert Field(s, OwnedSkins) == Field(t, OwnedSkins);
    assert Field(s, EquippedSkin) == Field(t, EquippedSkin);
    assert Field(s, Streak) == Field(t, Streak);
    assert Field(s, Achievements) == Field(t, Achievements);
  }

  const EmptyPatch: Patch := Patch(None, None, None, None, None, None, None, None, None)

  /** The later patch wins on keys both carry. */
  function Overlay(p: Patch, q: Patch): Patch {
    Patch(
      if q.level.Some? then q.level else p.level,
      if q.xp.Some? then q.xp else p.xp,
      if q.coins.Some? then q.coins else p.coins,
      if q.quests.Some? then q.quests else p.quests,
      if q.dailyQuests.Some? then q.dailyQuests else p.dailyQuests,
      if q.ownedSkins.Some? then q.ownedSkins else p.ownedSkins,
      if q.equippedSkin.Some? then q.equippedSkin else p.equippedSkin,
      if q.streak.Some? then q.streak else p.streak,
      if q.achievements.Some? then q.achievements else p.achievements)
  }

  /** A patch with no keys changes nothing. */
  lemma SetStateEmpty(s: State)
    ensures SetState(s, EmptyPatch) == s
  {
    FieldsDetermineState(SetState(s, EmptyPatch), s);
  }

  /** Applying the same patch twice is applying it once. */
  lemma SetStateIdempotent(s: State, p: Patch)
    ensures SetState(SetState(s, p), p) == SetState(s, p)
  {
    FieldsDetermineState(SetState(SetState(s, p), p), SetState(s, p));
  }

  /** Two merges in a row are one merge of the overlaid patches. */
  lemma SetStateCompose(s: State, p: Patch, q: Patch)
    ensures SetState(SetState(s, p), q) == SetState(s, Overlay(p, q))
  {
    var a := SetState(SetState(s, p), q);
    var b := SetState(s, Overlay(p, q));
    forall k ensures Field(a, k) == Field(b, k) {
      match k
      case Level =>
      case Xp =>
      case Coins =>
      case Quests =>
      case DailyQuests =>
      case OwnedSkins =>
      case EquippedSkin =>
      case Streak =>
      case Achievements =>
    }
    FieldsDetermineState(a, b);
  }

  /** The patch carrying every key of `t`, as the server's full state response does. */
  function FullPatch(t: State): Patch
    requires t.streak.Some? && t.achievements.Some?
  {
    Patch(Some(t.level), Some(t.xp), Some(t.coins), Some(t.quests), Some(t.dailyQuests),
          Some(t.ownedSkins), Some(t.equippedSkin), t.streak, t.achievements)
  }

  /** Loading a complete server state replaces the local state entirely. */
  lemma SetStateFullReplaces(s: State, t: State)
    requires t.streak.Some? && t.achievements.Some?
    ensures SetState(s, FullPatch(t)) == t
  {
    FieldsDetermineState(SetState(s, FullPatch(t)), t);
  }
}

=== FILE: store_client.dfy ===
/** The client side of the skin shop (static/js/ui.js): the roulette
    handler with its `isSpinning` guard, and the optimistic skin equip that
    is rolled back when the server does not confirm it. Server replies are
    inputs; the spinning images and timers are not modelled. */
module StoreClient {
  import opened Common
  import opened Model
  import AchievementSync

  /** The store plus the handler's module-level `isSpinning` flag. */
  datatype Session = Session(state: State, spinning: bool)

  /** What `spinRouletteAPI()` delivers: a success reply, an error reply,
      or a rejected request. */
  datatype SpinReply = SpinWon(coins: int, skin: string) | SpinRefused(error: string) | SpinUnreachable

  /** The synchronous part of `spinRouletteHandler(cost)`: nothing happens
      while a spin is in flight or when coins are short; otherwise the
      flag is raised and the request is sent (`started`). */
  function SpinStart(ses: Session, cost: int): (r: (Session, bool))
    ensures r.1 <==> !ses.spinning && ses.state.coins >= cost
    ensures r.1 ==> r.0 == Session(ses.state, true)
    ensures !r.1 ==> r.0 == ses
  {
    if ses.spinning then (ses, false)
    else if ses.state.coins < cost then (ses, false)
    else (Session(ses.state, true), true)
  }

  /** The reply handler: the flag is lowered; on success the coins become
      the server's value and the won skin is appended to the owned list. */
  function SpinSettle(ses: Session, reply: SpinReply): (r: Session)
    ensures !r.spinning
    ensures reply.SpinWon? ==>
              && r.state.coins == reply.coins
              && r.state.ownedSkins == ses.state.ownedSkins + [reply.skin]
              && r.state == ses.state.(coins := reply.coins, ownedSkins := r.state.ownedSkins)
    ensures !reply.SpinWon? ==> r.state == ses.state
  {
    match reply
    case SpinWon(coins, skin) =>
      Session(ses.state.(coins := coins, ownedSkins := ses.state.ownedSkins + [skin]), false)
    case _ => Session(ses.state, false)
  }

  /** The reply handler as it evidently should be: like `SpinSettle`, and
      the ids the server reports as newly unlocked are merged as
      `saveStateAPI` merges them. */
  function SpinSettleMerging(ses: Session, reply: SpinReply, newly: Option<seq<string>>): (r: Session)
    ensures !r.spinning
    ensures r.state == AchievementSync.MergeUnlocked(SpinSettle(ses, reply).state, newly).0
    ensures reply.SpinWon? && newly.Some? ==>
              forall x :: x in newly.value ==> x in r.state.achievements.GetOr([])
  {
    Session(AchievementSync.MergeUnlocked(SpinSettle(ses, reply).state, newly).0, false)
  }

  /** While a spin is in flight every further spin request is dropped. */
  lemma SpinGuard(ses: Session, cost: int, reply: SpinReply)
    ensures ses.spinning ==> SpinStart(ses, cost) == (ses, false)
    ensures var (started, ok) := SpinStart(ses, cost);
            ok ==> started.spinning && SpinStart(started, cost) == (started, false)
    ensures SpinStart(SpinSettle(ses, reply), cost).1 <==> SpinSettle(ses, reply).state.coins >= cost
  {
  }

  /** A won skin is owned afterwards and nothing owned before is lost. */
  lemma SpinWinOwnsSkin(ses: Session, coins: int, skin: string)
    ensures var r := SpinSettle(ses, SpinWon(coins, skin));
            skin in r.state.ownedSkins
            && forall x :: x in ses.state.ownedSkins ==> x in r.state.ownedSkins
  {
  }

  /** What `equipSkinAPI(id)` delivers. */
  datatype EquipReply = EquipConfirmed | EquipRefused(error: string) | EquipUnreachable

  /** The optimistic step of `equipSkinHandler(id)`: the skin is equipped
      locally before the server answers. */
  function EquipStart(s: State, id: string): (r: State)
    ensures r.equippedSkin == id
    ensures r.(equippedSkin := s.equippedSkin) == s
  {
    s.(equippedSkin := id)
  }

  /** The reply handler: a confirmation keeps the current state; a refusal
      or a failed request puts back `previous`, the skin equipped before. */
  function EquipSettle(s: State, previous: string, reply: EquipReply): (r: State)
    ensures reply.EquipConfirmed? ==> r == s
    ensures !reply.EquipConfirmed? ==> r.equippedSkin == previous && r.(equippedSkin := s.equippedSkin) == s
  {
    if reply.EquipConfirmed? then s else s.(equippedSkin := previous)
  }

  /** The whole handler: success keeps the new skin, any failure restores
      the store exactly as it was. */
  lemma EquipRollback(s: State, id: string, reply: EquipReply)
    ensures reply.EquipConfirmed? ==> EquipSettle(EquipStart(s, id), s.equippedSkin, reply) == s.(equippedSkin := id)
    ensures !reply.EquipConfirmed? ==> EquipSettle(EquipStart(s, id), s.equippedSkin, reply) == s
  {
  }

  /** Equipping a skin chosen from the inventory (an owned one) keeps the store well-formed,
      whatever the reply. */
  lemma EquipKeepsWellformed(s: State, id: string, reply: EquipReply)
    requires Wellformed(s) && id in s.ownedSkins
    ensures Wellformed(EquipStart(s, id))
    ensures Wellformed(EquipSettle(EquipStart(s, id), s.equippedSkin, reply))
  {
  }
}

=== FILE: sync.dfy ===
/** How the client's store and the server's record stay in step: the save
    of `saveStateAPI` followed by the merge of its answer, the roulette
    round trip, the skin catalogue against the server's unlockable list,
    and two places where they drift apart. */
module Sync {
  import opened Common
  import opened Model
  import StateStore
  import Rewards
  import StoreClient
  import AchievementSync
  import DailyQuests
  import opened ServerUser
  import opened ServerStore

  /** The body `saveStateAPI` posts: the whole store. A store that has no
      `achievements` list sends no such key. */
  function BodyOf(s: State): (b: Body)
    ensures b.xp == Some(s.xp) && b.level == Some(s.level) && b.coins == Some(s.coins)
    ensures b.quests == Some(s.quests) && b.dailyQuests == Some(s.dailyQuests)
    ensures b.achievements == s.achievements
  {
    Body(Some(s.xp), Some(s.level), Some(s.coins), Some(s.quests), s.achievements, Some(s.dailyQuests))
  }

  // ------------------------------------------------------------ save + merge

  /** After a save, merging the server's `newly_unlocked` leaves the client
      with exactly the server's achievement list when the client sent one,
      and with a part of it when it did not. */
  lemma SaveThenMergeAgrees(s: State, u: UserRecord)
    ensures var (v, reply) := UpdateUser(u, Some(BodyOf(s)));
            var merged := AchievementSync.MergeUnlocked(s, reply.newlyUnlocked).0.achievements;
            && (s.achievements.Some? ==> merged == Some(v.achievements))
            && (forall x :: x in merged.GetOr([]) ==> x in v.achievements)
  {
    var (v, reply) := UpdateUser(u, Some(BodyOf(s)));
    if s.achievements.Some? {
      var base := s.achievements.value;
      if reply.newlyUnlocked.Some? {
        AchievementSync.AppendMissingFresh(base, reply.newlyUnlocked.value);
      } else {
        assert v.achievements == base + [] == base;
      }
    }
  }

  // ---------------------------------------------------------------- catalogue

  /** The catalogue lists the default skin first and then exactly the
      skins the server's roulette can unlock, in the same order. */
  lemma CatalogueMatchesServer()
    ensures StateStore.CatalogueIds(StateStore.StoreItems)[0] == DefaultSkin
    ensures StateStore.CatalogueIds(StateStore.StoreItems)[1..] == UnlockableSkins
  {
    var ids := StateStore.CatalogueIds(StateStore.StoreItems);
    assert |ids| == 7;
    assert ids[1..] == [ids[1], ids[2], ids[3], ids[4], ids[5], ids[6]];
  }

  // ------------------------------------------------------------------ roulette

  /** What the client's handler sees of the server's roulette answer. */
  function ClientView(reply: RouletteReply): StoreClient.SpinReply {
    match reply
    case RouletteWon(coins, skin, _) => StoreClient.SpinWon(coins, skin)
    case RouletteRefused(e) => StoreClient.SpinRefused(Message(e))
  }

  /** The client and the server agree on the shop: coins and owned skins. */
  predicate ShopAgrees(s: State, u: UserRecord) {
    s.coins == u.coins && s.ownedSkins == u.ownedSkins
  }

  /** A spin the client lets through is never refused for want of coins,
      and once its answer is handled client and server agree on the shop
      again, whatever skin was drawn. */
  lemma RouletteRoundTrip(ses: StoreClient.Session, u: UserRecord, pick: nat)
    requires ShopAgrees(ses.state, u)
    requires LockedSkins(u.ownedSkins) != [] ==> pick < |LockedSkins(u.ownedSkins)|
    ensures var (started, ok) := StoreClient.SpinStart(ses, RouletteCost);
            var (v, reply) := Roulette(u, pick);
            ok ==>
              && reply != RouletteRefused(NotEnoughCoins)
              && ShopAgrees(StoreClient.SpinSettle(started, ClientView(reply)).state, v)
  {
  }

  /** As written, the client drops the `newly_unlocked` of a spin, so the
      next save sends an achievement list without "cyber_spender" and the
      server overwrites its own list with it: the achievement is lost. */
  lemma CyberSpenderLostOnSave(ses: StoreClient.Session, u: UserRecord, pick: nat)
    requires ShopAgrees(ses.state, u) && ses.state.achievements == Some(u.achievements)
    requires CyberSpender !in u.achievements
    requires LockedSkins(u.ownedSkins) != [] ==> pick < |LockedSkins(u.ownedSkins)|
    requires Roulette(u, pick).1.RouletteWon?
    ensures var (v, reply) := Roulette(u, pick);
            var after := StoreClient.SpinSettle(StoreClient.Session(ses.state, true), ClientView(reply)).state;
            && CyberSpender in v.achievements
            && CyberSpender !in UpdateUser(v, Some(BodyOf(after))).0.achievements
  {
    var (v, reply) := Roulette(u, pick);
    var after := StoreClient.SpinSettle(StoreClient.Session(ses.state, true), ClientView(reply)).state;
    assert after.achievements == Some(u.achievements);
    assert CyberSpender != Initiate && CyberSpender != OnFire;
  }

  /** With the merging handler the client holds the server's list after a
      win, so a later save keeps "cyber_spender". */
  lemma CyberSpenderKeptOnSave(ses: StoreClient.Session, u: UserRecord, pick: nat)
    requires ShopAgrees(ses.state, u) && ses.state.achievements == Some(u.achievements)
    requires NoDuplicates(u.achievements)
    requires LockedSkins(u.ownedSkins) != [] ==> pick < |LockedSkins(u.ownedSkins)|
    requires Roulette(u, pick).1.RouletteWon?
    ensures var (v, reply) := Roulette(u, pick);
            var after := StoreClient.SpinSettleMerging(StoreClient.Session(ses.state, true), ClientView(reply),
                                                       reply.newlyUnlocked).state;
            && after.achievements == Some(v.achievements)
            && ShopAgrees(after, v)
            && CyberSpender in UpdateUser(v, Some(BodyOf(after))).0.achievements
  {
    var (v, reply) := Roulette(u, pick);
    if CyberSpender !in u.achievements {
      AchievementSync.AppendMissingFresh(u.achievements, [CyberSpender]);
    }
  }

  // ------------------------------------------------------------- daily quests

  /** As written, a daily quest completed on the client and saved comes back
      uncompleted when the page is loaded again the same day, and completing
      it again awards its reward a second time. */
  lemma DailyCompletionLost(s: State, u: UserRecord, today: int, d: DailyQuests.Draw,
                            ai: Option<DailyQuests.AiTask>)
    requires u.lastDaily == Day(today)
    requires s.dailyQuests == u.dailyQuests && |s.dailyQuests| > 0 && !s.dailyQuests[0].completed
    ensures var id := s.dailyQuests[0].id;
            var done := Rewards.CompleteDailyQuest(s, id);
            var saved := UpdateUser(u, Some(BodyOf(done))).0;
            var reloaded := LoadUserState(saved, today, d, ai);
            var again := Rewards.CompleteDailyQuest(done.(dailyQuests := reloaded.dailyQuests), id);
            && done.dailyQuests[0].completed
            && !reloaded.dailyQuests[0].completed
            && 100 * again.level + again.xp == 100 * done.level + done.xp + s.dailyQuests[0].xpReward
  {
    var id := s.dailyQuests[0].id;
    assert Rewards.FirstWithId(s.dailyQuests, id, 0);
    var done := Rewards.CompleteDailyQuest(s, id);
    var saved := UpdateUser(u, Some(BodyOf(done))).0;
    var reloaded := LoadUserState(saved, today, d, ai);
    assert reloaded.dailyQuests == u.dailyQuests;
    assert Rewards.FirstWithId(reloaded.dailyQuests, id, 0);
  }

  /** With the daily quests stored on save, the reload returns the
      completed quest and completing it again awards nothing. */
  lemma DailyCompletionPersists(s: State, u: UserRecord, today: int, d: DailyQuests.Draw,
                                ai: Option<DailyQuests.AiTask>)
    requires u.lastDaily == Day(today)
    requires s.dailyQuests == u.dailyQuests && |s.dailyQuests| > 0 && !s.dailyQuests[0].completed
    ensures var id := s.dailyQuests[0].id;
            var done := Rewards.CompleteDailyQuest(s, id);
            var saved := UpdateUserKeepingDailies(u, Some(BodyOf(done))).0;
            var reloaded := LoadUserState(saved, today, d, ai);
            && reloaded.dailyQuests == done.dailyQuests
            && Rewards.CompleteDailyQuest(done.(dailyQuests := reloaded.dailyQuests), id) == done
  {
    var id := s.dailyQuests[0].id;
    assert Rewards.FirstWithId(s.dailyQuests, id, 0);
    var done := Rewards.CompleteDailyQuest(s, id);
    assert Rewards.FirstWithId(done.dailyQuests, id, 0);
    Rewards.CompleteDailyQuestIdempotent(s, id);
  }
}
